=== FILE: README.md ===
# Attendance tracker engine

A model of the engine inside `index.js`, a single-page class attendance
tracker. The page keeps a roster of students and, for each calendar date, the
set of students marked present. It shows either a Monday-to-Sunday week or a
whole month as a grid of checkboxes. Two configurable weekdays are off-days:
their columns are shown but disabled, and they do not count towards a
student's percentage present.

The model takes out the DOM code and restates the engine as pure functions
over immutable data:

- `Calendar`: proleptic Gregorian civil dates, a day number counted from
  1970-01-01, the weekday (0 = Sunday, as `getDay`), and stepping a date by
  days the way `setDate(getDate() ± k)` normalises.
- `DateKeys`: the `YYYY-MM-DD` keys of the store. `formatDate` as written
  is `DateKeyAsWritten`; the rest of the model uses the corrected key
  `DateKey` (see "## Findings"). Also the reading of the date and month
  inputs back into dates, and the `YYYY-MM` month value.
- `Window`: `getWeekStart`, `daysFrom`, both branches of `buildDates`, and
  `filterWorkingDates` with its count of working days.
- `Text`: `String.prototype.trim` over the ECMAScript whitespace set.
- `Attendance`: the state (roster plus sparse map from date key to the ids
  marked present), `ensureDate`, and the actions toggle, delete, add and
  clear.
- `Report`: what `render` computes, namely the columns with their off-day
  flags, each student's present count over the working dates and their
  rounded percentage, and the lazy `ensureDate` of every visible date.
- `Scenarios`: concrete cases worked through the model. The week of Monday
  2024-01-01 has five working days. February 2024 has 29 days, 21 of them
  working days. A student present on Monday to Wednesday of that week is
  shown at 60%.

Dates are civil dates in one abstract time zone. The current date (`new
Date()`) and the fresh id (`uid()`) are parameters.

## Model

| member | source | states |
|---|---|---|
| Calendar.NextDay | index.js:43 | The next day is a valid date exactly one day later on the day-number line, across month and year ends. |
| Calendar.PrevDay | index.js:55 | The previous day, including day 0 of a month read as the last day of the month before, is valid and exactly one day earlier. |
| Calendar.AddDays | index.js:37 | Moving a valid date by any whole number of days, forwards or backwards, gives a valid date that many days away. |
| Calendar.DayNumberInjective | index.js:35 | Two valid dates with the same day number are the same date, so the day offsets identify dates. |
| Window.WeekStart | index.js:33-40 | The week start is a valid Monday, on or before the anchor and fewer than seven days before it; a Monday anchor is its own week start. |
| Window.WeekStartIsTheMonday | index.js:33-40 | Any Monday in the seven days ending at the anchor is the week start, so the week start is the only such Monday. |
| Window.DaysFrom | index.js:43 | The window has exactly `count` valid dates, and element `i` is `i` days after the start. |
| Window.DaysFromSplit | index.js:43 | A window of `a + b` days is the first `a` days followed by the `b` days starting `a` days later. |
| Window.WindowWeekdays | index.js:43 | Day `i` of a window falls `i` weekdays after the weekday of its first day. |
| Window.WeekDatesShape | index.js:47-49 | The week view `WeekDates` has seven valid consecutive dates running Monday to Sunday, begins at the week start, and contains the anchor. |
| Window.FirstOfMonth | index.js:54 | The month constructor gives a valid first-of-month date; for a month 1 to 12 it is that month, in a year where 0 to 99 mean 1900 to 1999. |
| Window.MonthLengthIsDaysInMonth | index.js:55 | Day 0 of the next month is the last day of this month, so the month length `MonthLength` (`new Date(y, m, 0).getDate()`) matches the Gregorian days-in-month rule, leap years included. |
| Window.MonthDatesShape | index.js:52-56 | The month view `MonthDates` has as many dates as the month has days, and date `i` is day `i + 1` of that month. |
| Window.BuildDates | index.js:46-57 | The visible dates are valid and consecutive. A week view has seven dates starting on a Monday. A month view is never None: it has 28 to 31 dates starting on day 1, or no dates at all, and a non-empty month value gives no dates exactly when it does not read as two numbers (the month length is then NaN and `daysFrom` lists nothing). An empty date input shows today's week, and a non-empty one gives None exactly when it does not read as a date. |
| Window.BuildDatesOfDateInput | index.js:48-49 | A date input that holds the key of a date shows the week of that date. |
| Window.BuildDatesOfMonthInput | index.js:52-56 | A `YYYY-MM` month input shows the month `new Date(y, m-1, 1)` picks (`MonthDates`, where years 0 to 99 mean 1900 to 1999). An empty month input, for a today in years 0 to 9999, shows the month of today's year and month read the same way, which is the current month for years 100 to 9999. |
| Window.WeekStartYear | index.js:33-40 | The Monday of a week lies in the anchor's year or the year before. |
| Window.InitialWeekView | index.js:149 | At start-up the date input gets the key of this week's Monday, which shows the current week, for years 1 to 9999. |
| Window.FilterWorkingDates | index.js:60-63 | Every kept date is an input date that is not an off-day (`IsOffDay`: its weekday is either setting), and every input date that is not an off-day is kept. |
| Window.FilterIsSubsequence | index.js:62 | The working dates are an order-preserving subsequence of the visible dates. |
| Window.FilterAppend | index.js:62 | Filtering a concatenation gives the concatenation of the two filtered parts. |
| Window.FilterKeepsWorking | index.js:62 | A window without off-days is kept whole. |
| Window.FilterDropsOff | index.js:62 | A window of off-days only has no working dates. |
| Window.FilterIdempotent | index.js:62 | Filtering the working dates again changes nothing. |
| Window.WorkingInWindow | index.js:60-63 | The number of working days in a window depends only on its first weekday and its length. |
| Window.CountWorkingSplit | index.js:60-63 | The working-day count of `a + b` consecutive days splits into the first `a` days and the `b` days after them. |
| Window.WholeWeeks | index.js:60-63 | Every run of `k` whole weeks has `k` times the number of weekdays that are not off-days. |
| Window.SevenDays | index.js:60-63 | Any seven consecutive days have seven minus the number of distinct off weekdays as working days. |
| Window.WeekHasFiveWorkingDays | index.js:47-63 | With two distinct off weekdays, every week view has exactly five working days. |
| DateKeys.PadNatValue | index.js:9 | A zero-padded decimal field reads back as the number it was written from. |
| DateKeys.DateKeyAsWrittenAgrees | index.js:9 | For years 0 to 9999, `formatDate` as written (`DateKeyAsWritten`, the ten-character slice of the ISO string) is the whole calendar date `DateKey`. |
| DateKeys.DateKeyAsWrittenCollides | index.js:9 | 10000-01-01 and 10000-01-02 get the same key "+010000-01" from the ten-character slice. |
| DateKeys.SliceOfLongYear | index.js:9 | When the ISO year takes seven characters (`+YYYYYY` or `-YYYYYY`), the ten-character slice is the year, a dash and the month, so the day is gone. |
| DateKeys.DateKeyAsWrittenCollidesBeforeYearZero | index.js:9 | Before year 0 the slice also drops the day: -000001-12-30 and -000001-12-31 both get "-000001-12". |
| DateKeys.ParseDateKeyOfDateKey | index.js:9 | Reading a date key back gives the date it was made from. |
| DateKeys.DateKeyInjective | index.js:9 | Distinct valid dates have distinct date keys. |
| DateKeys.ParseMonthKeyOfMonthKey | index.js:53 | `ParseMonthKey`, which splits the value at its dashes and reads both numbers, gives back the year and month of a `YYYY-MM` month value. |
| DateKeys.DefaultMonthKey | index.js:52 | For years 0 to 9999 the first seven characters of today's ISO string are today's month value. |
| Text.Trim | index.js:139 | The trimmed name is empty exactly when the name is all whitespace; otherwise it starts and ends with non-whitespace. |
| Text.TrimSplits | index.js:139 | The name is leading whitespace, then the trimmed name, then trailing whitespace. |
| Text.TrimIdempotent | index.js:139 | Trimming a trimmed name changes nothing. |
| Attendance.EnsureDate | index.js:30 | The date gets an empty set of marks only when it has none; existing dates keep their marks, and no cell changes. |
| Attendance.SetMark | index.js:125-130 | A checked box stores `true` and an unchecked box removes the cell. No other date or student's cell changes, the roster stays the same, and the date key is ensured. |
| Attendance.Flip | index.js:125-130 | A click on a box that shows the current presence flips that cell's presence, and nothing else changes. |
| Attendance.FlipTwice | index.js:125-130 | Two clicks restore every cell's presence; on a sparse store the only trace left is the ensured date. |
| Attendance.CheckThenUncheck | index.js:125-130 | Checking an unchecked box and then unchecking it leaves a sparse store as `ensureDate` left it. |
| Attendance.UncheckThenCheck | index.js:125-130 | Unchecking a checked box and then checking it leaves a sparse store unchanged. |
| Attendance.SetMarkPreservesWellFormed | index.js:128 | Toggling a student on the roster keeps the store free of `false` values and of ids not on the roster. |
| Attendance.RemoveStudent | index.js:134 | The filtered roster holds exactly the students whose id differs from the deleted one. |
| Attendance.RemoveStudentIsSubsequence | index.js:134 | The filtered roster keeps the remaining students in their order. |
| Attendance.PurgeMarks | index.js:135 | The deleted id no longer holds a truthy mark on the date, and every other id's mark is unchanged. |
| Attendance.Delete | index.js:132-137 | No student with the id remains and every other student does. The set of date keys is unchanged. The id is present nowhere, and every other student's cells are unchanged. |
| Attendance.DeleteKeepsOrder | index.js:134 | Delete keeps the other students in their relative order. |
| Attendance.DeletePurges | index.js:135 | On a store without `false` values, no date's marks mention the deleted id afterwards. |
| Attendance.DeleteUnknown | index.js:132-137 | Deleting an id that no student has leaves a state without orphan marks unchanged. |
| Attendance.DeleteRemovesOne | index.js:134 | With unique ids, deleting a student on the roster shortens the roster by exactly one. |
| Attendance.DeletePreservesWellFormed | index.js:132-137 | Delete keeps the state well formed: no `false` values, unique ids, no orphan marks. |
| Attendance.Add | index.js:139 | A name that is blank after trimming changes nothing. Otherwise exactly one student with the new id and the trimmed, non-empty name is appended, earlier students are unchanged, and the marks are untouched. |
| Attendance.AddPreservesWellFormed | index.js:139 | Adding under an id not on the roster keeps the state well formed. |
| Attendance.Clear | index.js:143 | Clearing leaves no students and no cells, a well-formed state. |
| Report.PresentCount | index.js:91-97 | The present count over a list of dates never exceeds the number of dates. |
| Report.PresentCountAppend | index.js:91-97 | The present count over two lists of dates joined together is the sum of the two counts. |
| Report.PresentCountExtremes | index.js:91-97 | The count is the number of dates when every cell is present, and 0 when none is. |
| Report.PresentCountSamePresence | index.js:94-95 | Stores that agree on presence agree on the count, so the `ensureDate` calls made while counting do not change it. |
| Report.Percent | index.js:110-111 | The percentage is the nearest integer to 100·present/max(1, working), with halves rounded up. It lies in 0..100, is 0 when nobody is present, and is 100 when every working day is. |
| Report.EnsureDates | index.js:100-102 | Ensuring every visible date adds exactly their keys, keeps every existing date's marks, and changes no cell. |
| Report.ColumnsAgreeWithWorking | index.js:62-104 | A column of `Columns` is marked off (its boxes disabled) exactly when its date is not among the working dates the percentage counts. |
| Report.Rows | index.js:87-115 | There is one row per student, in roster order. The present count is at most the number of working dates, and the percentage lies in 0..100. |
| Report.RowsCount | index.js:91-97 | Each row's present count is the student's presence counted on the working dates. |
| Report.Render | index.js:66-123 | With no students the state is unchanged and the grid is empty. Otherwise every visible date is ensured and a column per date carries its off flag. Each row's percentage lies in 0..100 and is 0 when no date is a working day. The roster and every cell are unchanged. |
| Report.RenderPercent | index.js:91-111 | Each row's present count is the student's presence on the working dates in the store before rendering; its percentage is that count over the number of working dates. |
| Scenarios.NewYearWeek | index.js:33-40 | 2024-01-01 is a Monday and begins the week of every day from it to Sunday 2024-01-07. |
| Scenarios.NewYearWorkingDays | index.js:60-63 | With Saturday and Sunday off, the week of 2024-01-01 has Monday to Friday as its working days. |
| Scenarios.February2024 | index.js:52-56 | The month view of 2024-02 has the 29 days from 2024-02-01 to 2024-02-29, and 21 of them are Monday to Friday. |
| Scenarios.February2024View | index.js:52-56 | The month input "2024-02" shows the 29 days of February 2024, 21 of them Monday to Friday, whatever today is. |
| Scenarios.UnreadableMonths | index.js:52-56 | The month values "abc" and "2024" show an empty window. |
| Scenarios.YearTenThousandMonth | index.js:52-53 | On a day of year 10000 the default month value "+010000" has no month part, so the window is empty. |
| Scenarios.EmptyWindowRendersZero | index.js:110-111 | With no dates in the window there are no date columns and every student is shown at 0%. |
| Scenarios.TwoDigitYearMonth | index.js:52-56 | The month value "0050-03" shows the 31 days from 1950-03-01. |
| Scenarios.AddScenarios | index.js:139 | Adding the name of two spaces adds no one; adding " Ava " adds "Ava". |
| Scenarios.AvaAtSixtyPercent | index.js:91-111 | A student checked on Monday to Wednesday of that week is counted present on 3 working days and shown at 60%. |

## Left out

- Building the HTML (header text `MM-DD` and weekday names, cells, buttons), the event wiring and `escapeHtml` (index.js:66-123, 142, 146) are not modelled. The grid is modelled as columns and rows of values.
- `localStorage` load and save and the JSON round-trip (index.js:13-14) are not modelled. Loading falls back to `Attendance.Empty`.
- `uid()` (index.js:8) reads the clock and `Math.random`, so the new id is a parameter of `Attendance.Add`. `Attendance.AddPreservesWellFormed` requires that it is fresh.
- `new Date()` is the parameter `today`.
- Time zones are not modelled. Keys and the default month come from `toISOString` in UTC, while `getDay`, `setDate` and `setHours` work in local time. The model uses one civil calendar for all of them.
- `Math.round` on a floating-point quotient becomes integer round-half-up; floating-point rounding error is not modelled.
- The `confirm` dialog of the clear button is not modelled. Clearing is modelled as the confirmed case.
- The range limit of JS `Date` (±8.64e15 ms) and invalid `Date` values are not modelled. A date input that does not read as a date gives None; the program would render seven invalid dates, and `formatDate` would throw.
- The date input (`new Date(dateLike)`, modelled by `DateKeys.ParseDateKey`) is read only in the `YYYY-MM-DD` form the model writes (a year of exactly four digits, or a sign and six or more digits). Other strings `new Date` accepts are not modelled.
- The month input's pieces are read as digits, optionally after `+`. Other forms `Number` accepts (surrounding spaces, exponents, hex) are not modelled. The model reads them as NaN and shows an empty month, where the program would read a number.
- Report.PresentCount, Report.EnsureDates, Report.Columns and Report.Render key the store with the corrected `DateKeys.DateKey`, not with `formatDate` as written (`DateKeys.DateKeyAsWritten`). The two coincide for years 0 to 9999 (`DateKeys.DateKeyAsWrittenAgrees`); outside years 0 to 9999 the program shares one key among all days of a month ("+010000-01" from year 10000 on, "-000001-12" for year -1), which the model does not reproduce (see "## Findings").
- Report.Render inherits the same difference: for a month outside years 0 to 9999, the model keeps one key per day where the program keeps one per month.
- The toggle handler is modelled as written by `Attendance.SetMark`: it stores the checkbox's new state, not a blind flip. `Attendance.Flip` is the click on a box that shows the stored presence.
- In `Report.Render` the grid's rows are computed against the store after every visible date is ensured, in one step. The source interleaves the ensures with the counting student by student. `Report.RenderPercent` shows this gives the same counts.

## Findings

| source | as written | input that shows it | evidently intended | confidence | as-written member | corrected member |
|---|---|---|---|---|---|---|
| index.js:9 | `formatDate` keeps the first ten characters of `toISOString()`. From year 10000 on the ISO year is written `+010000`, and before year 0 as `-000001`, so the slice drops the day. | Month input `10000-01`: every day of January 10000 gets the key `+010000-01`, so one checkbox marks all 31 days. | The key is the whole calendar-date part of the ISO string, distinct for distinct dates. | not executed | DateKeys.DateKeyAsWrittenCollides, DateKeys.DateKeyAsWrittenCollidesBeforeYearZero | DateKeys.DateKeyInjective |

=== FILE: attendance.dfy ===
/** The tracker's persisted state and the user actions that change it:
    ticking or clearing a box (`onToggle`), deleting a student (`onDelete`),
    adding one (the submit handler of the add form) and clearing all data.
    Each action is a pure transform from the old state to the new one; the
    `save` to local storage that follows each of them is not modelled. */
module Attendance {
  import opened Text
  import opened Sequences

  type Id = string

  /** A date key of the store (`YYYY-MM-DD`). The actions treat it as an
      opaque string. */
  type Key = string

  datatype Student = Student(id: Id, name: string)

  /** Presence marks of one date, by student id. */
  type Marks = map<Id, bool>

  /** The attendance store: per date key, the marks of that date. */
  type Register = map<Key, Marks>

  datatype State = State(students: seq<Student>, attendance: Register)

  /** What the store holds for one (date, student) cell. */
  datatype Entry = Absent | Stored(value: bool)

  function Cell(att: Register, key: Key, id: Id): Entry {
    if key in att && id in att[key] then Stored(att[key][id]) else Absent
  }

  /** `!!state.attendance[date][id]`: a cell counts as present only when it
      holds `true`. */
  predicate Present(att: Register, key: Key, id: Id) {
    Cell(att, key, id) == Stored(true)
  }

  /** Absence is the lack of a key: no cell ever holds `false`. */
  predicate Sparse(att: Register) {
    forall k, id :: k in att && id in att[k] ==> att[k][id]
  }

  predicate HasId(students: seq<Student>, id: Id) {
    exists i :: 0 <= i < |students| && students[i].id == id
  }

  predicate UniqueIds(students: seq<Student>) {
    forall i, j :: 0 <= i < j < |students| ==> students[i].id != students[j].id
  }

  /** Every id the store mentions belongs to a student on the roster. */
  predicate NoOrphans(st: State) {
    forall k, id :: k in st.attendance && id in st.attendance[k] ==> HasId(st.students, id)
  }

  predicate WellFormed(st: State) {
    Sparse(st.attendance) && UniqueIds(st.students) && NoOrphans(st)
  }

  /** The state that loading falls back to when nothing usable is stored. */
  const Empty: State := State([], map[])

  /** `ensureDate`: give the date an empty set of marks unless it has one. */
  function EnsureDate(att: Register, key: Key): (r: Register)
    ensures r.Keys == att.Keys + {key}
    ensures forall k :: k in att ==> r[k] == att[k]
    ensures key !in att ==> r[key] == map[]
    ensures forall k, id :: Cell(r, k, id) == Cell(att, k, id)
  {
    if key in att then att else att[key := map[]]
  }

  /** `onToggle`: a box for (`key`, `id`) changed to `checked`. A checked box
      stores `true`; an unchecked box deletes the cell, never storing
      `false`. */
  function SetMark(st: State, id: Id, key: Key, checked: bool): (r: State)
    ensures r.students == st.students
    ensures r.attendance.Keys == st.attendance.Keys + {key}
    ensures Cell(r.attendance, key, id) == (if checked then Stored(true) else Absent)
    ensures forall k, j :: (k != key || j != id) ==>
      Cell(r.attendance, k, j) == Cell(st.attendance, k, j)
  {
    var att := EnsureDate(st.attendance, key);
    var marks := if checked then att[key][id := true] else att[key] - {id};
    State(st.students, att[key := marks])
  }

  /** A click on a box that shows the current presence: it flips it. */
  function Flip(st: State, id: Id, key: Key): (r: State)
    ensures Present(r.attendance, key, id) == !Present(st.attendance, key, id)
    ensures r.students == st.students
    ensures forall k, j :: (k != key || j != id) ==>
      Cell(r.attendance, k, j) == Cell(st.attendance, k, j)
  {
    SetMark(st, id, key, !Present(st.attendance, key, id))
  }

  /** Flipping twice restores the presence of every cell; on a sparse store
      the only trace left is the (empty) marks of the date. */
  lemma FlipTwice(st: State, id: Id, key: Key)
    ensures var r := Flip(Flip(st, id, key), id, key);
      forall k, j :: Present(r.attendance, k, j) == Present(st.attendance, k, j)
    ensures Sparse(st.attendance) ==>
      Flip(Flip(st, id, key), id, key) == State(st.students, EnsureDate(st.attendance, key))
  {
    var r := Flip(Flip(st, id, key), id, key);
    if Sparse(st.attendance) {
      var e := EnsureDate(st.attendance, key);
      assert r.attendance.Keys == e.Keys;
      forall k | k in e
        ensures r.attendance[k] == e[k]
      {
        assert r.attendance[k].Keys == e[k].Keys;
      }
    }
  }

  /** Checking an unchecked box and unchecking it again leaves the store
      as `ensureDate` left it. */
  lemma CheckThenUncheck(st: State, id: Id, key: Key)
    requires Sparse(st.attendance) && !Present(st.attendance, key, id)
    ensures SetMark(SetMark(st, id, key, true), id, key, false)
         == State(st.students, EnsureDate(st.attendance, key))
  {
    FlipTwice(st, id, key);
  }

  /** Unchecking a checked box and checking it again changes nothing. */
  lemma UncheckThenCheck(st: State, id: Id, key: Key)
    requires Sparse(st.attendance) && Present(st.attendance, key, id)
    ensures SetMark(SetMark(st, id, key, false), id, key, true) == st
  {
    FlipTwice(st, id, key);
    assert EnsureDate(st.attendance, key) == st.attendance;
  }

  /** Toggling a student on the roster keeps the state well formed. */
  lemma SetMarkPreservesWellFormed(st: State, id: Id, key: Key, checked: bool)
    requires WellFormed(st) && HasId(st.students, id)
    ensures WellFormed(SetMark(st, id, key, checked))
  {
    var r := SetMark(st, id, key, checked);
    forall k, j | k in r.attendance && j in r.attendance[k]
      ensures r.attendance[k][j] && HasId(r.students, j)
    {
      assert Cell(r.attendance, k, j) != Absent;
      if k != key || j != id {
        assert Cell(st.attendance, k, j) == Cell(r.attendance, k, j);
      }
    }
  }

  /** The roster without the students whose id is `id`, in roster order. */
  function RemoveStudent(students: seq<Student>, id: Id): (r: seq<Student>)
    ensures forall s :: s in r <==> s in students && s.id != id
    ensures |r| <= |students|
    decreases |students|
  {
    if students == [] then []
    else
      var rest := RemoveStudent(students[1..], id);
      if students[0].id == id then rest else [students[0]] + rest
  }

  lemma {:induction false} RemoveStudentIsSubsequence(students: seq<Student>, id: Id)
    ensures IsSubsequence(RemoveStudent(students, id), students)
    decreases |students|
  {
    if students != [] {
      RemoveStudentIsSubsequence(students[1..], id);
      assert students == [students[0]] + students[1..];
      ConsSubsequence(students[0], RemoveStudent(students[1..], id), students[1..],
                      students[0].id != id);
    }
  }

  /** Without that id on the roster, removing it removes nothing. */
  lemma {:induction false} RemoveStudentAbsent(students: seq<Student>, id: Id)
    requires !HasId(students, id)
    ensures RemoveStudent(students, id) == students
    decreases |students|
  {
    if students != [] {
      RemoveStudentAbsent(students[1..], id);
      assert [students[0]] + students[1..] == students;
    }
  }

  /** With unique ids, removing one on the roster shortens it by one. */
  lemma {:induction false} RemoveStudentLength(students: seq<Student>, id: Id)
    requires UniqueIds(students) && HasId(students, id)
    ensures |RemoveStudent(students, id)| == |students| - 1
    decreases |students|
  {
    if students[0].id == id {
      RemoveStudentAbsent(students[1..], id);
    } else {
      var i :| 0 <= i < |students| && students[i].id == id;
      assert students[1..][i - 1].id == id;
      RemoveStudentLength(students[1..], id);
    }
  }

  /** `onDelete` on one date's marks: a cell of `id` holding a truthy value
      is deleted. */
  function PurgeMarks(marks: Marks, id: Id): (r: Marks)
    ensures !(id in r && r[id])
    ensures forall j :: j != id ==> (j in r <==> j in marks)
    ensures forall j :: j in r ==> j in marks && r[j] == marks[j]
  {
    if id in marks && marks[id] then marks - {id} else marks
  }

  /** `onDelete`: drop the student from the roster and clear their marks on
      every date. */
  function Delete(st: State, id: Id): (r: State)
    ensures !HasId(r.students, id)
    ensures forall s :: s in r.students <==> s in st.students && s.id != id
    ensures r.attendance.Keys == st.attendance.Keys
    ensures forall k :: !Present(r.attendance, k, id)
    ensures forall k, j :: j != id ==> Cell(r.attendance, k, j) == Cell(st.attendance, k, j)
  {
    var att := map k | k in st.attendance :: PurgeMarks(st.attendance[k], id);
    var r := State(RemoveStudent(st.students, id), att);
    r
  }

  /** Delete keeps the other students in their order. */
  lemma DeleteKeepsOrder(st: State, id: Id)
    ensures IsSubsequence(Delete(st, id).students, st.students)
  {
    RemoveStudentIsSubsequence(st.students, id);
  }

  /** On a sparse store no date mentions the deleted id any more. */
  lemma DeletePurges(st: State, id: Id)
    requires Sparse(st.attendance)
    ensures forall k :: k in Delete(st, id).attendance ==> id !in Delete(st, id).attendance[k]
  {
  }

  /** Deleting an id nobody has changes nothing on a state without orphan
      marks. */
  lemma DeleteUnknown(st: State, id: Id)
    requires NoOrphans(st) && !HasId(st.students, id)
    ensures Delete(st, id) == st
  {
    RemoveStudentAbsent(st.students, id);
    var r := Delete(st, id);
    forall k | k in st.attendance
      ensures r.attendance[k] == st.attendance[k]
    {
      assert id !in st.attendance[k];
    }
  }

  /** With unique ids, deleting a student on the roster removes exactly one
      entry. */
  lemma DeleteRemovesOne(st: State, id: Id)
    requires UniqueIds(st.students) && HasId(st.students, id)
    ensures |Delete(st, id).students| == |st.students| - 1
  {
    RemoveStudentLength(st.students, id);
  }

  lemma DeletePreservesWellFormed(st: State, id: Id)
    requires WellFormed(st)
    ensures WellFormed(Delete(st, id))
  {
    var r := Delete(st, id);
    RemoveStudentIsSubsequence(st.students, id);
    SubsequenceUnique(r.students, st.students);
    forall k, j | k in r.attendance && j in r.attendance[k]
      ensures r.attendance[k][j] && HasId(r.students, j)
    {
      assert j != id;
      assert Cell(r.attendance, k, j) == Cell(st.attendance, k, j);
      assert k in st.attendance && j in st.attendance[k];
      assert HasId(st.students, j);
      var i :| 0 <= i < |st.students| && st.students[i].id == j;
      assert st.students[i] in r.students;
    }
  }

  /** A subsequence of a roster with unique ids has unique ids. */
  lemma {:induction false} SubsequenceUnique(xs: seq<Student>, ys: seq<Student>)
    requires IsSubsequence(xs, ys) && UniqueIds(ys)
    ensures UniqueIds(xs)
    decreases |ys|
  {
    if xs != [] {
      if xs[0] == ys[0] && IsSubsequence(xs[1..], ys[1..]) {
        SubsequenceUnique(xs[1..], ys[1..]);
        forall j | 0 < j < |xs|
          ensures xs[0].id != xs[j].id
        {
          SubsequenceMember(xs[1..], ys[1..], j - 1);
        }
      } else {
        SubsequenceUnique(xs, ys[1..]);
      }
    }
  }

  /** Each element of a subsequence sits somewhere in the sequence. */
  lemma {:induction false} SubsequenceMember<T>(xs: seq<T>, ys: seq<T>, j: nat)
    requires IsSubsequence(xs, ys) && j < |xs|
    ensures exists i :: 0 <= i < |ys| && ys[i] == xs[j]
    decreases |ys|
  {
    if xs[0] == ys[0] && IsSubsequence(xs[1..], ys[1..]) {
      if j > 0 {
        SubsequenceMember(xs[1..], ys[1..], j - 1);
        var i :| 0 <= i < |ys[1..]| && ys[1..][i] == xs[1..][j - 1];
        assert ys[i + 1] == xs[j];
      } else {
        assert ys[0] == xs[0];
      }
    } else {
      SubsequenceMember(xs, ys[1..], j);
      var i :| 0 <= i < |ys[1..]| && ys[1..][i] == xs[j];
      assert ys[i + 1] == xs[j];
    }
  }

  /** The add form's submit handler: a name that is empty after trimming is
      ignored; otherwise a student with the trimmed name and the id `newId`
      (the generated `uid()`) goes at the end of the roster. */
  function Add(st: State, name: string, newId: Id): (r: State)
    ensures AllWhitespace(name) ==> r == st
    ensures !AllWhitespace(name) ==>
      && |r.students| == |st.students| + 1
      && r.students[..|st.students|] == st.students
      && r.students[|st.students|] == Student(newId, Trim(name))
      && Trim(name) != []
    ensures r.attendance == st.attendance
  {
    var n := Trim(name);
    if n == [] then st else State(st.students + [Student(newId, n)], st.attendance)
  }

  /** Adding a student under a fresh id keeps the state well formed. */
  lemma AddPreservesWellFormed(st: State, name: string, newId: Id)
    requires WellFormed(st) && !HasId(st.students, newId)
    ensures WellFormed(Add(st, name, newId))
  {
    var r := Add(st, name, newId);
    if !AllWhitespace(name) {
      forall k, j | k in r.attendance && j in r.attendance[k]
        ensures HasId(r.students, j)
      {
        assert HasId(st.students, j);
        var i :| 0 <= i < |st.students| && st.students[i].id == j;
        assert r.students[i] == st.students[i];
      }
    }
  }

  /** The clear button: back to no students and no marks. */
  function Clear(st: State): (r: State)
    ensures r.students == []
    ensures forall k, id :: Cell(r.attendance, k, id) == Absent
    ensures WellFormed(r)
  {
    Empty
  }
}

=== FILE: calendar.dfy ===
/** Proleptic Gregorian civil dates, the day-number line they sit on, and the
    weekday function. This is the part of JavaScript's `Date` that the
    attendance tracker relies on: `getDay`, `getDate` and `setDate` stepping
    by whole days. Time of day and time zones are not part of this model. */
module Calendar {

  /** A civil date; `month` is 1-based (January = 1), unlike JavaScript's
      0-based month index. */
  datatype Date = Date(year: int, month: int, day: int)

  predicate IsLeapYear(y: int) {
    y % 4 == 0 && (y % 100 != 0 || y % 400 == 0)
  }

  /** The Gregorian days-in-month rule. */
  function DaysInMonth(y: int, m: int): (n: int)
    requires 1 <= m <= 12
    ensures 28 <= n <= 31
  {
    if m == 2 then (if IsLeapYear(y) then 29 else 28)
    else if m == 4 || m == 6 || m == 9 || m == 11 then 30
    else 31
  }

  /** A date that exists on the calendar. */
  predicate Valid(d: Date) {
    1 <= d.month <= 12 && 1 <= d.day <= DaysInMonth(d.year, d.month)
  }

  function YearLength(y: int): int {
    if IsLeapYear(y) then 366 else 365
  }

  /** Days from 1970-01-01 to January 1st of year `y` (negative before
      1970): 365 per year plus one per leap year in between. Division by a
      positive constant is floor division in Dafny, so the leap-year count
      `n / 4 - n / 100 + n / 400` of years 1..n is right for any `n`. */
  function YearStart(y: int): int {
    var n := y - 1;
    365 * n + n / 4 - n / 100 + n / 400 - 719162
  }

  /** Days in the months of year `y` before month `m`; `m` = 13 is the
      whole year. */
  function DaysBeforeMonth(y: int, m: int): int
    requires 1 <= m <= 13
  {
    var common := [0, 31, 59, 90, 120, 151, 181, 212, 243, 273, 304, 334, 365];
    common[m - 1] + (if IsLeapYear(y) && m > 2 then 1 else 0)
  }

  /** Days since 1970-01-01. */
  function DayNumber(d: Date): int
    requires 1 <= d.month <= 12
  {
    YearStart(d.year) + DaysBeforeMonth(d.year, d.month) + d.day - 1
  }

  /** Day of the week, 0 = Sunday .. 6 = Saturday, as `Date.getDay`.
      1970-01-01 was a Thursday. */
  function Weekday(d: Date): (w: int)
    requires 1 <= d.month <= 12
    ensures 0 <= w < 7
  {
    (DayNumber(d) + 4) % 7
  }

  const Sunday: int := 0
  const Monday: int := 1
  const Saturday: int := 6

  lemma YearLengthIsMonthSum(y: int)
    ensures DaysBeforeMonth(y, 13) == YearLength(y)
  {
  }

  /** Consecutive months abut on the day-number line. */
  lemma MonthStep(y: int, m: int)
    requires 1 <= m <= 12
    ensures DaysBeforeMonth(y, m + 1) == DaysBeforeMonth(y, m) + DaysInMonth(y, m)
  {
  }

  lemma Div4Step(n: int)
    ensures (n + 1) / 4 == n / 4 + (if (n + 1) % 4 == 0 then 1 else 0)
  {
  }

  lemma Div100Step(n: int)
    ensures (n + 1) / 100 == n / 100 + (if (n + 1) % 100 == 0 then 1 else 0)
  {
  }

  lemma Div400Step(n: int)
    ensures (n + 1) / 400 == n / 400 + (if (n + 1) % 400 == 0 then 1 else 0)
  {
  }

  lemma YearStep(y: int)
    ensures YearStart(y + 1) == YearStart(y) + YearLength(y)
  {
    Div4Step(y - 1);
    Div100Step(y - 1);
    Div400Step(y - 1);
  }

  /** Within a month, the next day of the month is the next day number. */
  lemma DayBoundary(y: int, m: int, day: int)
    requires 1 <= m <= 12
    ensures DayNumber(Date(y, m, day + 1)) == DayNumber(Date(y, m, day)) + 1
  {
  }

  /** The first day of a month follows the last day of the month before. */
  lemma MonthBoundary(y: int, m: int)
    requires 1 <= m < 12
    ensures DayNumber(Date(y, m + 1, 1)) == DayNumber(Date(y, m, DaysInMonth(y, m))) + 1
  {
    MonthStep(y, m);
    hide YearStart, DaysBeforeMonth, DaysInMonth;
  }

  /** January 1st follows December 31st of the year before. */
  lemma YearBoundary(y: int)
    ensures DayNumber(Date(y + 1, 1, 1)) == DayNumber(Date(y, 12, 31)) + 1
  {
    YearStep(y);
    YearLengthIsMonthSum(y);
    MonthStep(y, 12);
    assert DaysBeforeMonth(y + 1, 1) == 0;
    assert DaysInMonth(y, 12) == 31;
    hide YearStart, DaysBeforeMonth, DaysInMonth, YearLength;
  }

  /** The date after `d`, as `d.setDate(d.getDate() + 1)` computes it. */
  function NextDay(d: Date): (r: Date)
    requires Valid(d)
    ensures Valid(r)
    ensures DayNumber(r) == DayNumber(d) + 1
  {
    if d.day < DaysInMonth(d.year, d.month) then
      DayBoundary(d.year, d.month, d.day);
      Date(d.year, d.month, d.day + 1)
    else if d.month < 12 then
      MonthBoundary(d.year, d.month);
      Date(d.year, d.month + 1, 1)
    else
      YearBoundary(d.year);
      Date(d.year + 1, 1, 1)
  }

  /** The date before `d`, as `d.setDate(d.getDate() - 1)` computes it;
      day 0 of a month is the last day of the month before. */
  function PrevDay(d: Date): (r: Date)
    requires Valid(d)
    ensures Valid(r)
    ensures DayNumber(r) == DayNumber(d) - 1
  {
    if d.day > 1 then
      DayBoundary(d.year, d.month, d.day - 1);
      Date(d.year, d.month, d.day - 1)
    else if d.month > 1 then
      MonthBoundary(d.year, d.month - 1);
      Date(d.year, d.month - 1, DaysInMonth(d.year, d.month - 1))
    else
      YearBoundary(d.year - 1);
      Date(d.year - 1, 12, 31)
  }

  /** `d` moved by `k` whole days, forwards or backwards, one day at a time
      as `setDate(getDate() + k)` normalises an out-of-range day. */
  function AddDays(d: Date, k: int): (r: Date)
    requires Valid(d)
    ensures Valid(r)
    ensures DayNumber(r) == DayNumber(d) + k
    decreases if k < 0 then -k else k
  {
    if k == 0 then d
    else if k > 0 then AddDays(NextDay(d), k - 1)
    else AddDays(PrevDay(d), k + 1)
  }

  /** Months before `m` fill fewer days than the start of month `m'` for
      any later `m'`. */
  lemma {:induction false} MonthsIncrease(y: int, m: int, m': int)
    requires 1 <= m < m' <= 13
    ensures DaysBeforeMonth(y, m) + DaysInMonth(y, m) <= DaysBeforeMonth(y, m')
    decreases m' - m
  {
    MonthStep(y, m);
    if m + 1 < m' {
      MonthsIncrease(y, m + 1, m');
    }
  }

  lemma {:induction false} YearsIncrease(y: int, y': int)
    requires y < y'
    ensures YearStart(y) + YearLength(y) <= YearStart(y')
    decreases y' - y
  {
    YearStep(y);
    if y + 1 < y' {
      YearsIncrease(y + 1, y');
      YearStep(y + 1);
    }
  }

  /** A valid date lies inside its own year on the day-number line. */
  lemma WithinYear(d: Date)
    requires Valid(d)
    ensures YearStart(d.year) <= DayNumber(d)
    ensures DayNumber(d) < YearStart(d.year) + YearLength(d.year)
  {
    YearLengthIsMonthSum(d.year);
    if d.month < 12 {
      MonthsIncrease(d.year, d.month, 13);
    }
  }

  /** Distinct valid dates have distinct day numbers. */
  lemma DayNumberInjective(a: Date, b: Date)
    requires Valid(a) && Valid(b)
    requires DayNumber(a) == DayNumber(b)
    ensures a == b
  {
    WithinYear(a);
    WithinYear(b);
    if a.year < b.year {
      YearsIncrease(a.year, b.year);
    } else if b.year < a.year {
      YearsIncrease(b.year, a.year);
    }
    assert a.year == b.year;
    if a.month < b.month {
      MonthsIncrease(a.year, a.month, b.month);
    } else if b.month < a.month {
      MonthsIncrease(a.year, b.month, a.month);
    }
  }
}

=== FILE: datekeys.dfy ===
/** The text forms of dates used by the tracker: the `YYYY-MM-DD` keys of
    the attendance store (`formatDate`, built on `Date.toISOString`), the
    value of the date input that anchors the week view, and the `YYYY-MM`
    value of the month input. */
module DateKeys {
  import opened Calendar

  datatype Option<T> = None | Some(value: T)

  predicate IsDigit(c: char) {
    '0' <= c <= '9'
  }

  predicate AllDigits(s: string) {
    forall i :: 0 <= i < |s| ==> IsDigit(s[i])
  }

  function DigitChar(n: int): (c: char)
    requires 0 <= n <= 9
    ensures IsDigit(c)
  {
    "0123456789"[n]
  }

  function DigitValue(c: char): (n: int)
    requires IsDigit(c)
    ensures 0 <= n <= 9
  {
    c as int - '0' as int
  }

  /** DigitValue reads back the digit DigitChar writes. */
  lemma DigitValueOfChar(n: int)
    requires 0 <= n <= 9
    ensures DigitValue(DigitChar(n)) == n
  {
  }

  function Pow10(w: nat): (p: nat)
    ensures p >= 1
  {
    if w == 0 then 1 else 10 * Pow10(w - 1)
  }

  /** The decimal digits of `n`, padded on the left with zeros to at least
      `width` digits. */
  function PadNat(n: nat, width: nat): (s: string)
    ensures |s| >= 1 && |s| >= width
    ensures AllDigits(s)
    decreases n, width
  {
    if n < 10 && width <= 1 then [DigitChar(n)]
    else PadNat(n / 10, if width == 0 then 0 else width - 1) + [DigitChar(n % 10)]
  }

  /** The number a string of decimal digits spells. */
  function DigitsValue(s: string): nat
    requires AllDigits(s)
    decreases |s|
  {
    if s == [] then 0 else DigitsValue(s[..|s| - 1]) * 10 + DigitValue(s[|s| - 1])
  }

  /** Reading back the digits written by PadNat gives the number. */
  lemma {:induction false} PadNatValue(n: nat, width: nat)
    ensures DigitsValue(PadNat(n, width)) == n
    decreases n, width
  {
    var s := PadNat(n, width);
    if n < 10 && width <= 1 {
      DigitValueOfChar(n);
      hide DigitChar, DigitValue;
      assert s[..0] == [];
    } else {
      DigitValueOfChar(n % 10);
      hide DigitChar, DigitValue;
      var prefix := PadNat(n / 10, if width == 0 then 0 else width - 1);
      assert s[..|s| - 1] == prefix;
      PadNatValue(n / 10, if width == 0 then 0 else width - 1);
    }
  }

  /** A number with at most `width` digits is padded to exactly `width`. */
  lemma {:induction false} PadNatLength(n: nat, width: nat)
    requires width >= 1 && n < Pow10(width)
    ensures |PadNat(n, width)| == width
    decreases width
  {
    if !(n < 10 && width <= 1) {
      PadNatLength(n / 10, width - 1);
    }
  }

  /** The year as `toISOString` writes it: four digits for years 0 to 9999,
      otherwise a sign and six digits. */
  function FormatYear(y: int): (s: string)
    ensures |s| >= 4
  {
    if 0 <= y <= 9999 then PadNat(y, 4)
    else if y > 9999 then "+" + PadNat(y, 6)
    else "-" + PadNat(-y, 6)
  }

  /** The calendar-date part of `toISOString`: year, month and day joined
      by dashes. It is at least ten characters long. */
  function IsoDate(d: Date): (s: string)
    requires Valid(d)
    ensures |s| >= 10
  {
    PadNatLength(d.month, 2);
    PadNatLength(d.day, 2);
    FormatYear(d.year) + "-" + PadNat(d.month, 2) + "-" + PadNat(d.day, 2)
  }

  /** `formatDate` as written: the first ten characters of the ISO string.
      That is the whole calendar date only when the year has four digits. */
  function DateKeyAsWritten(d: Date): (k: string)
    requires Valid(d)
    ensures |k| == 10
  {
    IsoDate(d)[..10]
  }

  /** The date key the store is meant to use: the whole calendar-date part
      of the ISO string. */
  function DateKey(d: Date): (k: string)
    requires Valid(d)
    ensures |k| >= 10
  {
    IsoDate(d)
  }

  /** For the years 0 to 9999 the ten-character slice is the whole date. */
  lemma DateKeyAsWrittenAgrees(d: Date)
    requires Valid(d) && 0 <= d.year <= 9999
    ensures DateKeyAsWritten(d) == DateKey(d)
  {
    assert Pow10(4) == 10000;
    PadNatLength(d.year, 4);
    PadNatLength(d.month, 2);
    PadNatLength(d.day, 2);
  }

  /** Outside those years the slice loses the day: 10000-01-01 and
      10000-01-02 share the key "+010000-01". */
  lemma DateKeyAsWrittenCollides()
    ensures Valid(Date(10000, 1, 1)) && Valid(Date(10000, 1, 2))
    ensures DateKeyAsWritten(Date(10000, 1, 1)) == "+010000-01"
    ensures DateKeyAsWritten(Date(10000, 1, 1)) == DateKeyAsWritten(Date(10000, 1, 2))
  {
    assert PadNat(0, 1) == "0" && PadNat(1, 1) == "1" && PadNat(2, 1) == "2";
    assert PadNat(1, 2) == "01" && PadNat(2, 2) == "02";
    assert PadNat(10, 3) == "010";
    assert PadNat(100, 4) == "0100";
    assert PadNat(1000, 5) == "01000";
    assert PadNat(10000, 6) == "010000";
  }

  /** With a seven-character year the ten-character slice ends right after
      the month. */
  lemma SliceOfLongYear(d: Date)
    requires Valid(d) && |FormatYear(d.year)| == 7
    ensures DateKeyAsWritten(d) == FormatYear(d.year) + "-" + PadNat(d.month, 2)
  {
    PadNatLength(d.month, 2);
    var head := FormatYear(d.year) + "-" + PadNat(d.month, 2);
    assert |head| == 10;
    assert IsoDate(d) == head + "-" + PadNat(d.day, 2);
  }

  /** Before year 0 as well: -000001-12-30 and -000001-12-31 share the key
      "-000001-12". */
  lemma DateKeyAsWrittenCollidesBeforeYearZero()
    ensures Valid(Date(-1, 12, 30)) && Valid(Date(-1, 12, 31))
    ensures DateKeyAsWritten(Date(-1, 12, 30)) == "-000001-12"
    ensures DateKeyAsWritten(Date(-1, 12, 30)) == DateKeyAsWritten(Date(-1, 12, 31))
  {
    YearMinusOneDigits();
    hide PadNat, FormatYear;
    SliceOfLongYear(Date(-1, 12, 30));
    SliceOfLongYear(Date(-1, 12, 31));
  }

  /** The strings the year -1 in December is written with. */
  lemma YearMinusOneDigits()
    ensures FormatYear(-1) == "-000001" && PadNat(12, 2) == "12"
  {
    assert PadNat(1, 1) == "1" && PadNat(1, 2) == "01" && PadNat(1, 3) == "001";
    assert PadNat(1, 4) == "0001" && PadNat(1, 5) == "00001" && PadNat(1, 6) == "000001";
  }

  /** Reading a year written by FormatYear. */
  function ParseYear(t: string): Option<int> {
    if |t| == 4 && AllDigits(t) then Some(DigitsValue(t))
    else if |t| >= 7 && t[0] == '+' && AllDigits(t[1..]) then Some(DigitsValue(t[1..]))
    else if |t| >= 7 && t[0] == '-' && AllDigits(t[1..]) then
      var v: int := DigitsValue(t[1..]);
      Option<int>.Some(-v)
    else None
  }

  /** Reading a `YYYY-MM-DD` date string (with the signed six-digit year
      form for other years); None for anything that is not a calendar date
      in that form. */
  function ParseDateKey(s: string): (r: Option<Date>)
    ensures r.Some? ==> Valid(r.value)
  {
    if |s| < 10 || s[|s| - 6] != '-' || s[|s| - 3] != '-' then None
    else
      var year := ParseYear(s[..|s| - 6]);
      var mm := s[|s| - 5..|s| - 3];
      var dd := s[|s| - 2..];
      if year.None? || !AllDigits(mm) || !AllDigits(dd) then None
      else
        var d := Date(year.value, DigitsValue(mm), DigitsValue(dd));
        if Valid(d) then Some(d) else None
  }

  lemma ParseYearOfFormatYear(y: int)
    ensures ParseYear(FormatYear(y)) == Some(y)
  {
    if 0 <= y <= 9999 {
      PadNatLength(y, 4);
      PadNatValue(y, 4);
    } else if y > 9999 {
      var t := FormatYear(y);
      assert t[1..] == PadNat(y, 6);
      PadNatValue(y, 6);
    } else {
      var t := FormatYear(y);
      assert t[1..] == PadNat(-y, 6);
      PadNatValue(-y, 6);
    }
  }

  /** How ParseDateKey takes apart a year, a two-character month and a
      two-character day joined by dashes. */
  lemma ParseDateKeyOfParts(y: string, mm: string, dd: string)
    requires |y| >= 4 && |mm| == 2 && |dd| == 2
    requires ParseYear(y).Some? && AllDigits(mm) && AllDigits(dd)
    ensures var d := Date(ParseYear(y).value, DigitsValue(mm), DigitsValue(dd));
      ParseDateKey(y + "-" + mm + "-" + dd) == if Valid(d) then Some(d) else None
  {
    hide ParseYear, DigitsValue, Valid;
    var s := y + "-" + mm + "-" + dd;
    var n := |s|;
    assert s[..n - 6] == y;
    assert s[n - 5..n - 3] == mm;
    assert s[n - 2..] == dd;
  }

  /** The key of a date reads back as that date. */
  lemma ParseDateKeyOfDateKey(d: Date)
    requires Valid(d)
    ensures ParseDateKey(DateKey(d)) == Some(d)
  {
    var y := FormatYear(d.year);
    var mm := PadNat(d.month, 2);
    var dd := PadNat(d.day, 2);
    PadNatLength(d.month, 2);
    PadNatLength(d.day, 2);
    ParseYearOfFormatYear(d.year);
    PadNatValue(d.month, 2);
    PadNatValue(d.day, 2);
    assert DateKey(d) == y + "-" + mm + "-" + dd;
    hide PadNat, FormatYear, ParseYear, DigitsValue, DateKey, IsoDate, ParseDateKey;
    ParseDateKeyOfParts(y, mm, dd);
  }

  /** Different dates have different keys, so the store keeps one entry
      per calendar day. */
  lemma DateKeyInjective(a: Date, b: Date)
    requires Valid(a) && Valid(b)
    requires DateKey(a) == DateKey(b)
    ensures a == b
  {
    ParseDateKeyOfDateKey(a);
    ParseDateKeyOfDateKey(b);
  }

  /** `split('-')`: the pieces of `s` between dashes. */
  function SplitDash(s: string): (parts: seq<string>)
    ensures |parts| >= 1
    decreases |s|
  {
    if s == [] then [""]
    else
      var rest := SplitDash(s[1..]);
      if s[0] == '-' then [""] + rest else [[s[0]] + rest[0]] + rest[1..]
  }

  predicate NoDash(s: string) {
    forall i :: 0 <= i < |s| ==> s[i] != '-'
  }

  lemma {:induction false} SplitDashNone(s: string)
    requires NoDash(s)
    ensures SplitDash(s) == [s]
    decreases |s|
  {
    if s != [] {
      SplitDashNone(s[1..]);
      assert [s[0]] + s[1..] == s;
    }
  }

  lemma {:induction false} SplitDashFirst(a: string, b: string)
    requires NoDash(a)
    ensures SplitDash(a + "-" + b) == [a] + SplitDash(b)
    decreases |a|
  {
    var s := a + "-" + b;
    if a == [] {
      assert s[1..] == b;
    } else {
      assert s[1..] == a[1..] + "-" + b;
      SplitDashFirst(a[1..], b);
      assert [a[0]] + a[1..] == a;
    }
  }

  /** `Number` of one piece: digits (none at all reads as 0), optionally
      after a `+`; None stands for NaN and for the numeric forms this model
      does not read. */
  function DecimalNumber(t: string): Option<int> {
    if AllDigits(t) then Some(DigitsValue(t))
    else if |t| >= 2 && t[0] == '+' && AllDigits(t[1..]) then Some(DigitsValue(t[1..]))
    else None
  }

  /** `monthVal.split('-').map(Number)` destructured into `[y, m]`; None
      when `m` is missing or either is NaN. */
  function ParseMonthKey(s: string): Option<(int, int)> {
    var parts := SplitDash(s);
    if |parts| < 2 then None
    else
      match (DecimalNumber(parts[0]), DecimalNumber(parts[1]))
      case (Some(y), Some(m)) => Some((y, m))
      case _ => None
  }

  /** The `YYYY-MM` value a month input holds for a year from 0 on. */
  function MonthKey(y: nat, m: int): string
    requires 1 <= m <= 12
  {
    PadNat(y, 4) + "-" + PadNat(m, 2)
  }

  /** A month value reads back as its year and month. */
  lemma ParseMonthKeyOfMonthKey(y: nat, m: int)
    requires 1 <= m <= 12
    ensures ParseMonthKey(MonthKey(y, m)) == Some((y, m))
  {
    var ys := PadNat(y, 4);
    var ms := PadNat(m, 2);
    SplitDashFirst(ys, ms);
    SplitDashNone(ms);
    PadNatValue(y, 4);
    PadNatValue(m, 2);
  }

  /** For the years 0 to 9999, the default month `toISOString().slice(0, 7)`
      is the month key of today. */
  lemma DefaultMonthKey(today: Date)
    requires Valid(today) && 0 <= today.year <= 9999
    ensures IsoDate(today)[..7] == MonthKey(today.year, today.month)
  {
    assert Pow10(4) == 10000;
    PadNatLength(today.year, 4);
    PadNatLength(today.month, 2);
  }
}

=== FILE: report.dfy ===
/** What `render` computes from the state: the columns of the grid with
    their off-day flags, and per student the number of working days present
    and the percentage. Rendering also gives every visible date its (empty)
    marks in the store, which is the one change it makes to the state. The
    HTML itself is not modelled. */
module Report {
  import opened Calendar
  import opened DateKeys
  import opened Window
  import opened Attendance

  /** The number of `dates` on which the student's cell is present. */
  function PresentCount(att: Register, id: Id, dates: seq<Date>): (n: nat)
    requires AllValid(dates)
    ensures n <= |dates|
    decreases |dates|
  {
    if dates == [] then 0
    else (if Present(att, DateKey(dates[0]), id) then 1 else 0) + PresentCount(att, id, dates[1..])
  }

  /** Counting splits over a concatenation of windows. */
  lemma {:induction false} PresentCountAppend(att: Register, id: Id, a: seq<Date>, b: seq<Date>)
    requires AllValid(a) && AllValid(b)
    ensures AllValid(a + b)
    ensures PresentCount(att, id, a + b) == PresentCount(att, id, a) + PresentCount(att, id, b)
    decreases |a|
  {
    if a == [] {
      assert a + b == b;
    } else {
      assert (a + b)[0] == a[0];
      assert (a + b)[1..] == a[1..] + b;
      PresentCountAppend(att, id, a[1..], b);
    }
  }

  /** The count is the number of dates whose cell is present: all of them
      when every cell is present, none when no cell is. */
  lemma {:induction false} PresentCountExtremes(att: Register, id: Id, dates: seq<Date>)
    requires AllValid(dates)
    ensures (forall i :: 0 <= i < |dates| ==> Present(att, DateKey(dates[i]), id))
      ==> PresentCount(att, id, dates) == |dates|
    ensures (forall i :: 0 <= i < |dates| ==> !Present(att, DateKey(dates[i]), id))
      ==> PresentCount(att, id, dates) == 0
    decreases |dates|
  {
    if dates != [] {
      PresentCountExtremes(att, id, dates[1..]);
      assert forall i :: 0 <= i < |dates[1..]| ==> dates[1..][i] == dates[i + 1];
    }
  }

  /** The count looks only at presence, so stores that agree on presence
      agree on every count. */
  lemma {:induction false} PresentCountSamePresence(a: Register, b: Register, id: Id, dates: seq<Date>)
    requires AllValid(dates)
    requires forall k :: Present(a, k, id) == Present(b, k, id)
    ensures PresentCount(a, id, dates) == PresentCount(b, id, dates)
    decreases |dates|
  {
    if dates != [] {
      PresentCountSamePresence(a, b, id, dates[1..]);
    }
  }

  lemma DivisionBounds(a: int, b: int)
    requires b > 0
    ensures b * (a / b) <= a < b * (a / b) + b
  {
  }

  /** `Math.round(present / (working || 1) * 100)` in integer arithmetic:
      the divisor is forced to 1 when there are no working days, and a half
      rounds up. */
  function Percent(present: nat, working: nat): (p: int)
    requires present <= working
    ensures 0 <= p <= 100
    ensures present == 0 ==> p == 0
    ensures 0 < present == working ==> p == 100
    ensures var n := if working == 0 then 1 else working;
      n * (2 * p - 1) <= 200 * present < n * (2 * p + 1)
  {
    var n := if working == 0 then 1 else working;
    var p := (200 * present + n) / (2 * n);
    DivisionBounds(200 * present + n, 2 * n);
    PercentBounds(present, n, p);
    p
  }

  lemma {:induction false} MulMonotonic(n: nat, x: int, y: int)
    requires x <= y
    ensures n * x <= n * y
    decreases n
  {
    if n > 0 {
      MulMonotonic(n - 1, x, y);
      assert n * x == (n - 1) * x + x;
      assert n * y == (n - 1) * y + y;
    }
  }

  lemma MulCancel(n: int, x: int, y: int)
    requires n > 0
    ensures n * x < n * y ==> x < y
  {
    if y <= x {
      MulMonotonic(n, y, x);
    }
  }

  /** The nearest-integer property pins the percentage between 0 and 100. */
  lemma PercentBounds(present: nat, n: int, p: int)
    requires 0 < n && present <= n
    requires 2 * n * p <= 200 * present + n < 2 * n * p + 2 * n
    ensures n * (2 * p - 1) <= 200 * present < n * (2 * p + 1)
    ensures 0 <= p <= 100
    ensures present == 0 ==> p == 0
    ensures present == n ==> p == 100
  {
    var m := 2 * n;
    assert m * p == 2 * n * p;
    MulCancel(m, -1, p);
    MulCancel(m, p, 101);
    MulCancel(m, p, 1);
    MulCancel(m, 99, p);
  }

  /** One column of the grid: a visible date, its key, and whether it is an
      off-day (shown, but with its boxes disabled). */
  datatype Column = Column(date: Date, key: Key, off: bool)

  /** One row of the grid: a student, their working days present, and the
      percentage shown. */
  datatype Row = Row(student: Student, present: nat, percent: int)

  datatype Grid = Grid(columns: seq<Column>, rows: seq<Row>)

  function Columns(dates: seq<Date>, offA: int, offB: int): (cs: seq<Column>)
    requires AllValid(dates)
    ensures |cs| == |dates|
    ensures forall i :: 0 <= i < |dates| ==>
      cs[i] == Column(dates[i], DateKey(dates[i]), IsOffDay(dates[i], offA, offB))
  {
    seq(|dates|, i requires 0 <= i < |dates| =>
      Column(dates[i], DateKey(dates[i]), IsOffDay(dates[i], offA, offB)))
  }

  /** A column is marked off exactly when its date is left out of the
      working dates, so the disabled columns are the ones the percentage
      does not count. */
  lemma ColumnsAgreeWithWorking(dates: seq<Date>, offA: int, offB: int)
    requires AllValid(dates)
    ensures forall i :: 0 <= i < |dates| ==>
      (Columns(dates, offA, offB)[i].off <==> dates[i] !in FilterWorkingDates(dates, offA, offB))
  {
  }

  function Rows(att: Register, students: seq<Student>, working: seq<Date>): (rs: seq<Row>)
    requires AllValid(working)
    ensures |rs| == |students|
    ensures forall i :: 0 <= i < |students| ==>
      && rs[i].student == students[i]
      && rs[i].present <= |working|
      && 0 <= rs[i].percent <= 100
      && rs[i].percent == Percent(rs[i].present, |working|)
    decreases |students|
  {
    if students == [] then []
    else
      var present := PresentCount(att, students[0].id, working);
      [Row(students[0], present, Percent(present, |working|))] + Rows(att, students[1..], working)
  }

  /** The rows count presence on the working dates only. */
  lemma {:induction false} RowsCount(att: Register, students: seq<Student>, working: seq<Date>)
    requires AllValid(working)
    ensures forall i :: 0 <= i < |students| ==>
      Rows(att, students, working)[i].present == PresentCount(att, students[i].id, working)
    decreases |students|
  {
    if students != [] {
      RowsCount(att, students[1..], working);
    }
  }

  function KeysOf(dates: seq<Date>): set<Key>
    requires AllValid(dates)
  {
    set i | 0 <= i < |dates| :: DateKey(dates[i])
  }

  lemma KeysOfCons(dates: seq<Date>)
    requires AllValid(dates) && dates != []
    ensures KeysOf(dates) == {DateKey(dates[0])} + KeysOf(dates[1..])
  {
    forall k | k in KeysOf(dates)
      ensures k in {DateKey(dates[0])} + KeysOf(dates[1..])
    {
      var i :| 0 <= i < |dates| && DateKey(dates[i]) == k;
      if i > 0 {
        assert DateKey(dates[1..][i - 1]) == k;
      }
    }
    forall k | k in KeysOf(dates[1..])
      ensures k in KeysOf(dates)
    {
      var i :| 0 <= i < |dates[1..]| && DateKey(dates[1..][i]) == k;
      assert DateKey(dates[i + 1]) == k;
    }
  }

  /** `ensureDate` for every date of the window, in order. */
  function EnsureDates(att: Register, dates: seq<Date>): (r: Register)
    requires AllValid(dates)
    ensures r.Keys == att.Keys + KeysOf(dates)
    ensures forall k :: k in att ==> r[k] == att[k]
    ensures forall k, id :: Cell(r, k, id) == Cell(att, k, id)
    decreases |dates|
  {
    if dates == [] then att
    else
      var r := EnsureDates(EnsureDate(att, DateKey(dates[0])), dates[1..]);
      KeysOfCons(dates);
      r
  }

  /** `render` for the visible `dates` and the two off-day settings: the new
      state (the store with every visible date ensured, unless there are no
      students, when `render` stops early) and the grid. */
  function Render(st: State, dates: seq<Date>, offA: int, offB: int): (r: (State, Grid))
    requires AllValid(dates)
    ensures r.0.students == st.students
    ensures forall k, id :: Cell(r.0.attendance, k, id) == Cell(st.attendance, k, id)
    ensures st.students == [] ==> r == (st, Grid([], []))
    ensures st.students != [] ==>
      && r.0.attendance.Keys == st.attendance.Keys + KeysOf(dates)
      && |r.1.columns| == |dates|
      && (forall i :: 0 <= i < |dates| ==>
            r.1.columns[i].date == dates[i] && r.1.columns[i].key in r.0.attendance &&
            (r.1.columns[i].off <==> IsOffDay(dates[i], offA, offB)))
    ensures |r.1.rows| == |r.0.students| || st.students == []
    ensures st.students != [] ==> forall i :: 0 <= i < |st.students| ==>
      && r.1.rows[i].student == st.students[i]
      && 0 <= r.1.rows[i].percent <= 100
      && (FilterWorkingDates(dates, offA, offB) == [] ==> r.1.rows[i].percent == 0)
  {
    if st.students == [] then (st, Grid([], []))
    else
      var working := FilterWorkingDates(dates, offA, offB);
      var att := EnsureDates(st.attendance, dates);
      (State(st.students, att), Grid(Columns(dates, offA, offB), Rows(att, st.students, working)))
  }

  /** Each percentage is the student's presence on the working dates of the
      window, counted in the store as it was before rendering, over the
      number of working dates. */
  lemma RenderPercent(st: State, dates: seq<Date>, offA: int, offB: int, i: nat)
    requires AllValid(dates) && i < |st.students|
    ensures var working := FilterWorkingDates(dates, offA, offB);
      var row := Render(st, dates, offA, offB).1.rows[i];
      && row.present == PresentCount(st.attendance, st.students[i].id, working)
      && row.percent == Percent(row.present, |working|)
  {
    var working := FilterWorkingDates(dates, offA, offB);
    var att := EnsureDates(st.attendance, dates);
    RowsCount(att, st.students, working);
    PresentCountSamePresence(att, st.attendance, st.students[i].id, working);
  }
}

=== FILE: scenarios.dfy ===
/** Concrete runs of the model: the week of Monday 2024-01-01, February
    2024, and a student marked present on three days of a five-day week. */
module Scenarios {
  import opened Calendar
  import opened DateKeys
  import opened Text
  import opened Window
  import opened Attendance
  import opened Report

  const NewYear2024: Date := Date(2024, 1, 1)

  /** 2024-01-01 is a Monday. */
  lemma NewYearIsMonday()
    ensures Valid(NewYear2024) && Weekday(NewYear2024) == Monday
  {
  }

  /** So it starts its own week, and the week of every day up to Sunday
      2024-01-07. */
  lemma NewYearWeek()
    ensures WeekStart(NewYear2024) == NewYear2024
    ensures WeekStart(Date(2024, 1, 3)) == NewYear2024
    ensures WeekStart(Date(2024, 1, 7)) == NewYear2024
  {
    NewYearIsMonday();
    assert DayNumber(Date(2024, 1, 3)) == DayNumber(NewYear2024) + 2;
    assert DayNumber(Date(2024, 1, 7)) == DayNumber(NewYear2024) + 6;
    hide DayNumber, Weekday;
    WeekStartIsTheMonday(Date(2024, 1, 3));
    WeekStartIsTheMonday(Date(2024, 1, 7));
  }

  /** The month input value for February 2024. */
  lemma February2024Key()
    ensures MonthKey(2024, 2) == "2024-02"
  {
    assert PadNat(2, 1) == "2" && PadNat(20, 2) == "20" && PadNat(202, 3) == "202";
    assert PadNat(2024, 4) == "2024";
    assert PadNat(0, 1) == "0" && PadNat(2, 2) == "02";
  }

  /** 2024-02-01 is a Thursday. */
  lemma WeekdayOfFebruaryFirst()
    ensures Weekday(Date(2024, 2, 1)) == 4
  {
  }

  /** The month view of February 2024 is the 29 days from 2024-02-01. */
  lemma February2024Dates()
    ensures MonthDates(2024, 2) == DaysFrom(Date(2024, 2, 1), 29)
  {
    hide DaysFrom;
    assert FirstOfMonth(2024, 2) == Date(2024, 2, 1);
    MonthLengthIsDaysInMonth(2024, 2);
  }

  lemma ThursdayCounts()
    ensures CountWorking(4, 1, Sunday, Saturday) == 1
  {
  }

  /** 21 of the 29 days from Thursday 2024-02-01 are Monday to Friday. */
  lemma February2024Working()
    ensures |FilterWorkingDates(DaysFrom(Date(2024, 2, 1), 29), Sunday, Saturday)| == 21
  {
    hide DaysFrom, CountWorking, FilterWorkingDates, Weekday;
    WeekdayOfFebruaryFirst();
    WorkingInWindow(Date(2024, 2, 1), 29, Sunday, Saturday);
    CountWorkingSplit(4, 28, 1, Sunday, Saturday);
    WholeWeeks(4, 4, Sunday, Saturday);
    ThursdayCounts();
  }

  /** February 2024 has 29 days, 21 of them Monday to Friday. */
  lemma February2024()
    ensures var dates := MonthDates(2024, 2);
      && |dates| == 29
      && dates[0] == Date(2024, 2, 1) && dates[28] == Date(2024, 2, 29)
      && |FilterWorkingDates(dates, Sunday, Saturday)| == 21
  {
    hide DaysFrom, MonthDates, FilterWorkingDates;
    MonthDatesShape(2024, 2);
    February2024Dates();
    February2024Working();
  }

  /** The month input "2024-02" shows those 29 days, whatever today is. */
  lemma February2024View(today: Date)
    requires Valid(today)
    ensures BuildDates(Month("2024-02"), today) == Some(MonthDates(2024, 2))
    ensures |MonthDates(2024, 2)| == 29
    ensures |FilterWorkingDates(MonthDates(2024, 2), Sunday, Saturday)| == 21
  {
    February2024Key();
    BuildDatesOfMonthInput(2024, 2, today);
    February2024();
  }

  /** Month values that do not give two numbers, "abc" and "2024", show no
      dates. */
  lemma UnreadableMonths(today: Date)
    requires Valid(today)
    ensures BuildDates(Month("abc"), today) == Some([])
    ensures BuildDates(Month("2024"), today) == Some([])
  {
    assert NoDash("abc") && NoDash("2024");
    SplitDashNone("abc");
    SplitDashNone("2024");
    hide SplitDash, DecimalNumber, BuildDates;
    assert ParseMonthKey("abc").None? && ParseMonthKey("2024").None?;
  }

  /** Nor does the default month of a day in year 10000, whose ISO prefix
      "+010000" holds no dash. */
  lemma YearTenThousandMonth()
    ensures Valid(Date(10000, 1, 1))
    ensures BuildDates(Month(""), Date(10000, 1, 1)) == Some([])
  {
    var d := Date(10000, 1, 1);
    assert PadNat(0, 1) == "0" && PadNat(1, 1) == "1";
    assert PadNat(1, 2) == "01" && PadNat(10, 3) == "010";
    assert PadNat(100, 4) == "0100" && PadNat(1000, 5) == "01000";
    assert PadNat(10000, 6) == "010000";
    assert IsoDate(d)[..7] == "+010000";
    assert NoDash("+010000");
    SplitDashNone("+010000");
    hide SplitDash, DecimalNumber, BuildDates, IsoDate, PadNat;
    assert MonthChoice("", d).None?;
  }

  /** With no dates in the window every student is shown at 0%, and there
      are no date columns. */
  lemma EmptyWindowRendersZero(st: State, offA: int, offB: int)
    requires st.students != []
    ensures var grid := Render(st, [], offA, offB).1;
      && grid.columns == []
      && |grid.rows| == |st.students|
      && forall i :: 0 <= i < |grid.rows| ==> grid.rows[i].percent == 0
  {
  }

  /** The month value "0050-03" shows March 1950: `new Date(50, 2, 1)`
      reads a two-digit year as a year of the 1900s. */
  lemma TwoDigitYearMonth(today: Date)
    requires Valid(today)
    ensures BuildDates(Month(MonthKey(50, 3)), today) == Some(MonthDates(50, 3))
    ensures MonthDates(50, 3)[0] == Date(1950, 3, 1) && |MonthDates(50, 3)| == 31
  {
    BuildDatesOfMonthInput(50, 3, today);
    MonthDatesShape(50, 3);
  }

  lemma ScenarioCharacters()
    ensures IsWhitespace(' ') && !IsWhitespace('A') && !IsWhitespace('v') && !IsWhitespace('a')
  {
  }

  /** `" Ava ".trim()` is `"Ava"`. */
  lemma TrimPaddedName()
    ensures Trim(" Ava ") == "Ava" && !AllWhitespace(" Ava ")
  {
    ScenarioCharacters();
    hide IsWhitespace;
    assert " Ava "[0] == ' ' && " Ava "[1..] == "Ava ";
    assert TrimStart("Ava ") == "Ava ";
    assert TrimStart(" Ava ") == "Ava ";
    assert "Ava "[3] == ' ' && "Ava "[..3] == "Ava";
    assert TrimEnd("Ava") == "Ava";
    assert TrimEnd("Ava ") == "Ava";
    assert " Ava "[1] == 'A';
  }

  /** Nothing is added for a name of spaces; a padded name is trimmed. */
  lemma AddScenarios()
    ensures Add(Empty, "  ", "x") == Empty
    ensures Add(Empty, " Ava ", "a1").students == [Student("a1", "Ava")]
  {
    ScenarioCharacters();
    TrimPaddedName();
    hide IsWhitespace, Trim;
    assert AllWhitespace("  ");
  }

  /** The week view of 2024-01-01: seven days from Monday 2024-01-01 to
      Sunday 2024-01-07. */
  function NewYearWeekDates(): (d: seq<Date>)
    ensures d == WeekDates(NewYear2024)
    ensures |d| == 7 && AllValid(d) && AllValid(d[..5])
  {
    NewYearIsMonday();
    WeekDatesShape(NewYear2024);
    WeekDates(NewYear2024)
  }

  /** Its working days with Saturday and Sunday off are Monday to Friday. */
  lemma NewYearWorkingDays()
    ensures FilterWorkingDates(NewYearWeekDates(), Sunday, Saturday) == NewYearWeekDates()[..5]
  {
    NewYearIsMonday();
    hide DayNumber, Weekday, FilterWorkingDates, WeekDates, DaysFrom, WeekStart, NewYearWeekDates;
    var d := NewYearWeekDates();
    WeekDatesShape(NewYear2024);
    assert forall i :: 0 <= i < 7 ==> Weekday(d[i]) == (Monday + i) % 7;
    var workdays, weekend := d[..5], d[5..];
    assert d == workdays + weekend;
    FilterAppend(workdays, weekend, Sunday, Saturday);
    FilterKeepsWorking(workdays, Sunday, Saturday);
    assert weekend == [d[5], d[6]];
    FilterDropsOff(weekend, Sunday, Saturday);
  }

  /** Different days of the week have different keys. */
  lemma NewYearKeysDistinct()
    ensures var d := NewYearWeekDates();
      forall i, j :: 0 <= i < j < 7 ==> DateKey(d[i]) != DateKey(d[j])
  {
    NewYearIsMonday();
    hide DayNumber, Weekday, WeekDates, DaysFrom, WeekStart, DateKey, NewYearWeekDates;
    var d := NewYearWeekDates();
    WeekDatesShape(NewYear2024);
    forall i, j | 0 <= i < j < 7
      ensures DateKey(d[i]) != DateKey(d[j])
    {
      if DateKey(d[i]) == DateKey(d[j]) {
        DateKeyInjective(d[i], d[j]);
      }
    }
  }

  /** Ava's store after her boxes for Monday, Tuesday and Wednesday are
      checked. */
  function AvaMarked(): (st: State)
    ensures st.students == [Student("a1", "Ava")]
  {
    var d := NewYearWeekDates();
    var st0 := State([Student("a1", "Ava")], map[]);
    SetMark(SetMark(SetMark(st0, "a1", DateKey(d[0]), true), "a1", DateKey(d[1]), true),
            "a1", DateKey(d[2]), true)
  }

  /** Each check marks its own day only. */
  lemma AvaPresence()
    ensures var d := NewYearWeekDates();
      forall i :: 0 <= i < 7 ==> (Present(AvaMarked().attendance, DateKey(d[i]), "a1") <==> i < 3)
  {
    NewYearKeysDistinct();
    hide DateKey, DayNumber, Weekday, NewYearWeekDates, SetMark;
  }

  lemma AvaCount()
    ensures PresentCount(AvaMarked().attendance, "a1", NewYearWeekDates()[..5]) == 3
  {
    AvaPresence();
    hide DateKey, DayNumber, Weekday, AvaMarked, NewYearWeekDates, Present;
    var d := NewYearWeekDates();
    var working := d[..5];
    assert working[1..][1..][1..][1..][1..] == [];
    assert forall i :: 0 <= i < 5 ==> working[i] == d[i];
  }

  lemma ThreeOfFive()
    ensures Percent(3, 5) == 60
  {
  }

  /** Ava, present Monday to Wednesday in a Monday-to-Friday week, is shown
      at 60%. */
  lemma AvaAtSixtyPercent()
    ensures var grid := Render(AvaMarked(), NewYearWeekDates(), Sunday, Saturday).1;
      grid.rows[0].present == 3 && grid.rows[0].percent == 60
  {
    NewYearWorkingDays();
    AvaCount();
    ThreeOfFive();
    hide *;
    RenderPercent(AvaMarked(), NewYearWeekDates(), Sunday, Saturday, 0);
  }
}

=== FILE: sequences.dfy ===
/** Order-preserving subsequences, shared by the working-day filter and the
    roster filter of a delete. */
module Sequences {

  /** `xs` is obtained from `ys` by dropping some elements, keeping the
      order of the rest. */
  predicate IsSubsequence<T(==)>(xs: seq<T>, ys: seq<T>)
    decreases |ys|
  {
    |xs| <= |ys| &&
    (xs == [] ||
     (xs[0] == ys[0] && IsSubsequence(xs[1..], ys[1..])) ||
     IsSubsequence(xs, ys[1..]))
  }

  /** Keeping or dropping the head of `ys` in front of a subsequence of its
      tail gives a subsequence of `ys`. */
  lemma ConsSubsequence<T>(x: T, xs: seq<T>, ys: seq<T>, keep: bool)
    requires IsSubsequence(xs, ys)
    ensures IsSubsequence(if keep then [x] + xs else xs, [x] + ys)
  {
    var zs := [x] + ys;
    assert zs[1..] == ys;
    if keep {
      assert ([x] + xs)[1..] == xs;
    }
  }
}

=== FILE: text.dfy ===
/** `String.prototype.trim`, which the add-student form applies to the name
    before deciding whether to add anyone. */
module Text {

  /** The ECMAScript WhiteSpace and LineTerminator code points: tab, line
      feed, vertical tab, form feed, carriage return, space, no-break space,
      the Unicode space separators, the line and paragraph separators and the
      byte order mark. */
  predicate IsWhitespace(c: char) {
    var n := c as int;
    n == 0x09 || n == 0x0A || n == 0x0B || n == 0x0C || n == 0x0D || n == 0x20 ||
    n == 0xA0 || n == 0x1680 || (0x2000 <= n <= 0x200A) || n == 0x2028 || n == 0x2029 ||
    n == 0x202F || n == 0x205F || n == 0x3000 || n == 0xFEFF
  }

  predicate AllWhitespace(s: string) {
    forall i :: 0 <= i < |s| ==> IsWhitespace(s[i])
  }

  /** `s` with its leading whitespace removed. */
  function TrimStart(s: string): (r: string)
    ensures |r| <= |s| && r == s[|s| - |r|..]
    ensures AllWhitespace(s[..|s| - |r|])
    ensures r != [] ==> !IsWhitespace(r[0])
    decreases |s|
  {
    if s != [] && IsWhitespace(s[0]) then
      var r := TrimStart(s[1..]);
      assert s[..|s| - |r|] == [s[0]] + s[1..][..|s[1..]| - |r|];
      r
    else s
  }

  /** `s` with its trailing whitespace removed. */
  function TrimEnd(s: string): (r: string)
    ensures |r| <= |s| && r == s[..|r|]
    ensures AllWhitespace(s[|r|..])
    ensures r != [] ==> !IsWhitespace(r[|r| - 1])
    decreases |s|
  {
    if s != [] && IsWhitespace(s[|s| - 1]) then
      var r := TrimEnd(s[..|s| - 1]);
      assert s[|r|..] == s[..|s| - 1][|r|..] + [s[|s| - 1]];
      r
    else s
  }

  /** `trim()`: the part of `s` between its leading and its trailing
      whitespace. */
  function Trim(s: string): (r: string)
    ensures |r| <= |s|
    ensures r == [] <==> AllWhitespace(s)
    ensures r != [] ==> !IsWhitespace(r[0]) && !IsWhitespace(r[|r| - 1])
  {
    TrimEnd(TrimStart(s))
  }

  /** Trim cuts `s` into whitespace, the result, and whitespace. */
  lemma TrimSplits(s: string)
    ensures var r := Trim(s);
      exists i :: 0 <= i <= |s| - |r| && s[i..i + |r|] == r &&
        AllWhitespace(s[..i]) && AllWhitespace(s[i + |r|..])
  {
    hide IsWhitespace;
    var t := TrimStart(s);
    var r := TrimEnd(t);
    var i := |s| - |t|;
    assert s[i..i + |r|] == r;
    assert s[i + |r|..] == t[|r|..];
    assert AllWhitespace(s[..i]) && AllWhitespace(s[i + |r|..]);
  }

  /** A string without whitespace at either end is its own trim. */
  lemma TrimOfTrimmed(s: string)
    requires s != [] ==> !IsWhitespace(s[0]) && !IsWhitespace(s[|s| - 1])
    ensures Trim(s) == s
  {
  }

  lemma TrimIdempotent(s: string)
    ensures Trim(Trim(s)) == Trim(s)
  {
    hide IsWhitespace;
    TrimOfTrimmed(Trim(s));
  }
}

=== FILE: window.dfy ===
/** The visible date window of the attendance grid (the week or the month
    being shown) and its split into working days and off-days
    (`getWeekStart`, `daysFrom`, `buildDates`, `filterWorkingDates`). */
module Window {
  import opened Calendar
  import opened Sequences
  import opened DateKeys

  predicate AllValid(ds: seq<Date>) {
    forall i :: 0 <= i < |ds| ==> Valid(ds[i])
  }

  /** The Monday on or before `anchor`: the offset back from the anchor is
      `(getDay() + 6) % 7`, so Monday maps to 0 and Sunday to 6. */
  function WeekStart(anchor: Date): (r: Date)
    requires Valid(anchor)
    ensures Valid(r)
    ensures Weekday(r) == Monday
    ensures DayNumber(anchor) - 7 < DayNumber(r) <= DayNumber(anchor)
    ensures Weekday(anchor) == Monday ==> r == anchor
  {
    BackToMonday(anchor);
    AddDays(anchor, -((Weekday(anchor) + 6) % 7))
  }

  lemma BackToMonday(anchor: Date)
    requires Valid(anchor)
    ensures var r := AddDays(anchor, -((Weekday(anchor) + 6) % 7));
      && Weekday(r) == Monday
      && DayNumber(anchor) - 7 < DayNumber(r) <= DayNumber(anchor)
      && (Weekday(anchor) == Monday ==> r == anchor)
  {
    var r := AddDays(anchor, -((Weekday(anchor) + 6) % 7));
    hide DayNumber, AddDays;
    MondayOffset(DayNumber(anchor), DayNumber(r));
    if Weekday(anchor) == Monday {
      DayNumberInjective(r, anchor);
    }
  }

  /** Going back `(w + 6) % 7` days from a day with weekday `w` lands on a
      Monday, at most six days earlier, and not at all from a Monday. */
  lemma MondayOffset(n: int, n': int)
    requires n' == n - ((n + 4) % 7 + 6) % 7
    ensures (n' + 4) % 7 == Monday
    ensures n - 7 < n' <= n
    ensures (n + 4) % 7 == Monday ==> n' == n
  {
  }

  /** There is only one Monday among the seven days ending at the anchor,
      and WeekStart finds it. */
  lemma WeekStartIsTheMonday(anchor: Date)
    requires Valid(anchor)
    ensures forall m ::
      (Valid(m) && Weekday(m) == Monday && DayNumber(anchor) - 7 < DayNumber(m) <= DayNumber(anchor))
      ==> m == WeekStart(anchor)
  {
    var r := WeekStart(anchor);
    forall m | Valid(m) && Weekday(m) == Monday && DayNumber(anchor) - 7 < DayNumber(m) <= DayNumber(anchor)
      ensures m == r
    {
      SameWeekdayWithinAWeek(DayNumber(m), DayNumber(r));
      DayNumberInjective(m, r);
    }
  }

  /** The Monday of a week lies in the anchor's year or the year before. */
  lemma WeekStartYear(anchor: Date)
    requires Valid(anchor)
    ensures anchor.year - 1 <= WeekStart(anchor).year <= anchor.year
  {
    var r := WeekStart(anchor);
    WithinYear(r);
    WithinYear(anchor);
    if r.year > anchor.year {
      YearsIncrease(anchor.year, r.year);
    } else if r.year < anchor.year - 1 {
      YearsIncrease(r.year, anchor.year - 1);
      YearStep(anchor.year - 1);
    }
  }

  lemma SameWeekdayWithinAWeek(n: int, n': int)
    requires (n + 4) % 7 == (n' + 4) % 7
    requires n - 7 < n' < n + 7
    ensures n == n'
  {
  }

  /** The weekday `i` days after a day of weekday `w`. */
  lemma WeekdayAfter(n: int, i: int)
    ensures (n + i + 4) % 7 == ((n + 4) % 7 + i) % 7
  {
  }

  /** `count` consecutive dates from `start`, one `setDate(getDate() + 1)`
      apart. */
  function DaysFrom(start: Date, count: nat): (r: seq<Date>)
    requires Valid(start)
    ensures |r| == count
    ensures forall i :: 0 <= i < count ==> Valid(r[i]) && DayNumber(r[i]) == DayNumber(start) + i
    decreases count
  {
    if count == 0 then [] else [start] + DaysFrom(NextDay(start), count - 1)
  }

  /** A window of `a + b` days is the window of `a` days followed by the
      window of `b` days that starts right after it. */
  lemma {:induction false} DaysFromSplit(start: Date, a: nat, b: nat)
    requires Valid(start)
    ensures DaysFrom(start, a + b) == DaysFrom(start, a) + DaysFrom(AddDays(start, a), b)
    decreases a
  {
    hide DayNumber, NextDay, Valid, DaysInMonth;
    if a == 0 {
      assert DaysFrom(start, 0) == [];
    } else {
      var next := NextDay(start);
      DaysFromSplit(next, a - 1, b);
      assert AddDays(start, a) == AddDays(next, a - 1);
      assert DaysFrom(start, a + b) == [start] + DaysFrom(next, a - 1 + b);
      assert DaysFrom(start, a) == [start] + DaysFrom(next, a - 1);
    }
  }

  /** Within one month the window simply counts the day of the month up. */
  lemma {:induction false} DaysFromInMonth(start: Date, count: nat)
    requires Valid(start)
    requires start.day - 1 + count <= DaysInMonth(start.year, start.month)
    ensures forall i :: 0 <= i < count ==>
      DaysFrom(start, count)[i] == Date(start.year, start.month, start.day + i)
    decreases count
  {
    if count > 1 {
      DaysFromInMonth(NextDay(start), count - 1);
    }
  }

  /** The week view: seven days from the Monday on or before the anchor. */
  function WeekDates(anchor: Date): (r: seq<Date>)
    requires Valid(anchor)
  {
    DaysFrom(WeekStart(anchor), 7)
  }

  /** Day `i` of a window falls `i` weekdays after its first day. */
  lemma WindowWeekdays(start: Date, count: nat)
    requires Valid(start)
    ensures forall i :: 0 <= i < count ==>
      Weekday(DaysFrom(start, count)[i]) == (Weekday(start) + i) % 7
  {
    var r := DaysFrom(start, count);
    forall i | 0 <= i < count
      ensures Weekday(r[i]) == (Weekday(start) + i) % 7
    {
      hide DayNumber, DaysFrom, Valid;
      WeekdayAfter(DayNumber(start), i);
    }
  }

  /** The week view is seven consecutive days running Monday to Sunday, and
      the anchor is one of them. */
  lemma WeekDatesShape(anchor: Date)
    requires Valid(anchor)
    ensures var r := WeekDates(anchor);
      && |r| == 7
      && AllValid(r)
      && r[0] == WeekStart(anchor)
      && (forall i :: 0 <= i < 7 ==> DayNumber(r[i]) == DayNumber(r[0]) + i)
      && (forall i :: 0 <= i < 7 ==> Weekday(r[i]) == (Monday + i) % 7)
      && anchor in r
  {
    hide DayNumber, Weekday;
    var r := WeekDates(anchor);
    var k := DayNumber(anchor) - DayNumber(r[0]);
    assert 0 <= k < 7;
    DayNumberInjective(r[k], anchor);
    WindowWeekdays(WeekStart(anchor), 7);
  }

  /** The year the `Date(y, monthIndex, day)` constructor uses: 0 to 99
      mean 1900 to 1999. */
  function FullYear(y: int): int {
    if 0 <= y <= 99 then 1900 + y else y
  }

  /** `new Date(y, m - 1, 1)`: the first day of month `m` of year `y`, where
      a month outside 1..12 carries into neighbouring years. */
  function FirstOfMonth(y: int, m: int): (r: Date)
    ensures Valid(r) && r.day == 1
    ensures 1 <= m <= 12 ==> r.month == m && r.year == FullYear(y)
  {
    Date(FullYear(y) + (m - 1) / 12, (m - 1) % 12 + 1, 1)
  }

  /** `new Date(y, m, 0).getDate()`: the day of month of "day 0" of the
      following month, i.e. of the day before its first day. */
  function MonthLength(y: int, m: int): nat {
    PrevDay(FirstOfMonth(y, m + 1)).day
  }

  lemma Div12Step(n: int)
    ensures (n + 1) / 12 == n / 12 + (if n % 12 == 11 then 1 else 0)
    ensures (n + 1) % 12 == (if n % 12 == 11 then 0 else n % 12 + 1)
  {
  }

  /** Day 0 of the next month is the last day of this month, so the month
      length computed that way is the Gregorian days-in-month rule. */
  lemma MonthLengthIsDaysInMonth(y: int, m: int)
    ensures var f := FirstOfMonth(y, m);
      MonthLength(y, m) == DaysInMonth(f.year, f.month)
  {
    Div12Step(m - 1);
  }

  /** The month view: day 1 to the last day of the month. */
  function MonthDates(y: int, m: int): (r: seq<Date>) {
    DaysFrom(FirstOfMonth(y, m), MonthLength(y, m))
  }

  /** The month view holds every day of the month, in order, and nothing
      else. */
  lemma MonthDatesShape(y: int, m: int)
    ensures var f := FirstOfMonth(y, m);
      var r := MonthDates(y, m);
      && |r| == DaysInMonth(f.year, f.month)
      && forall i :: 0 <= i < |r| ==> r[i] == Date(f.year, f.month, i + 1)
  {
    MonthLengthIsDaysInMonth(y, m);
    DaysFromInMonth(FirstOfMonth(y, m), MonthLength(y, m));
  }

  /** The view controls: the week view anchored by the value of the date
      input, or the month view chosen by the value of the month input; an
      empty input means "today". */
  datatype View = Week(dateInput: string) | Month(monthInput: string)

  /** The anchor of the week view; None when the input is not a date (the
      browser's `Date` is then invalid). */
  function WeekAnchor(dateInput: string, today: Date): (r: Option<Date>)
    requires Valid(today)
    ensures r.Some? ==> Valid(r.value)
  {
    if dateInput == "" then Some(today) else ParseDateKey(dateInput)
  }

  /** The year and month of the month view; None when the value does not
      give two numbers. */
  function MonthChoice(monthInput: string, today: Date): Option<(int, int)>
    requires Valid(today)
  {
    ParseMonthKey(if monthInput == "" then IsoDate(today)[..7] else monthInput)
  }

  /** `buildDates`: the dates shown for the selected view. A date input
      that is not a date gives None (the program's seven dates are then
      invalid and `formatDate` throws while rendering). A month value that
      does not give two numbers makes the month length NaN, and
      `daysFrom(start, NaN)` lists no dates: the window is empty. */
  function BuildDates(v: View, today: Date): (r: Option<seq<Date>>)
    requires Valid(today)
    ensures r.Some? ==> AllValid(r.value)
    ensures r.Some? && v.Week? ==> |r.value| == 7 && Weekday(r.value[0]) == Monday
    ensures v.Month? ==> r.Some?
    ensures r.Some? && v.Month? && r.value != [] ==> 28 <= |r.value| <= 31 && r.value[0].day == 1
    ensures r.Some? ==> forall i :: 0 < i < |r.value| ==>
      DayNumber(r.value[i]) == DayNumber(r.value[i - 1]) + 1
    ensures v == Week("") ==> r == Some(WeekDates(today))
    ensures v.Week? && v.dateInput != "" ==> (r.None? <==> ParseDateKey(v.dateInput).None?)
    ensures v.Month? && v.monthInput != "" ==>
      (r == Some([]) <==> ParseMonthKey(v.monthInput).None?)
  {
    match v
    case Week(input) =>
      (match WeekAnchor(input, today)
       case Some(anchor) => Some(WeekDates(anchor))
       case None => None)
    case Month(input) =>
      match MonthChoice(input, today)
      case Some((y, m)) =>
        MonthLengthIsDaysInMonth(y, m);
        Some(MonthDates(y, m))
      case None => Some([])
  }

  /** A date input holding the key of a date shows the week of that date. */
  lemma BuildDatesOfDateInput(d: Date, today: Date)
    requires Valid(d) && Valid(today)
    ensures BuildDates(Week(DateKey(d)), today) == Some(WeekDates(d))
  {
    ParseDateKeyOfDateKey(d);
  }

  /** A month input holding `YYYY-MM` shows the month `new Date(y, m - 1, 1)`
      picks, so years 0 to 99 stand for 1900 to 1999. With an empty month
      input, a today in years 0 to 9999 shows the month its ISO prefix
      names; that is the current month from year 100 on. */
  lemma BuildDatesOfMonthInput(y: nat, m: int, today: Date)
    requires 1 <= m <= 12 && Valid(today)
    ensures BuildDates(Month(MonthKey(y, m)), today) == Some(MonthDates(y, m))
    ensures 0 <= today.year <= 9999 ==>
      BuildDates(Month(""), today) == Some(MonthDates(today.year, today.month))
  {
    ParseMonthKeyOfMonthKey(y, m);
    if 0 <= today.year <= 9999 {
      DefaultMonthKey(today);
      ParseMonthKeyOfMonthKey(today.year, today.month);
    }
  }

  /** At start-up the date input is set to the key of this week's Monday,
      which shows the current week; the `[..10]` slice of that key is the
      whole date only for four-digit years, so this holds from year 1 to
      9999 (the Monday of a week in year 1 may fall in year 0). */
  lemma InitialWeekView(today: Date)
    requires Valid(today) && 1 <= today.year <= 9999
    ensures BuildDates(Week(DateKeyAsWritten(WeekStart(today))), today) == Some(WeekDates(today))
  {
    var monday := WeekStart(today);
    WeekStartYear(today);
    DateKeyAsWrittenAgrees(monday);
    BuildDatesOfDateInput(monday, today);
    assert WeekStart(monday) == monday;
  }

  /** An off-day is one whose weekday is either configured off-day. */
  predicate IsOffDay(d: Date, offA: int, offB: int)
    requires 1 <= d.month <= 12
  {
    Weekday(d) == offA || Weekday(d) == offB
  }

  /** `filterWorkingDates`: the dates whose weekday is neither off-day. */
  function FilterWorkingDates(dates: seq<Date>, offA: int, offB: int): (r: seq<Date>)
    requires AllValid(dates)
    ensures AllValid(r)
    ensures |r| <= |dates|
    ensures forall i :: 0 <= i < |r| ==> r[i] in dates && !IsOffDay(r[i], offA, offB)
    ensures forall i :: 0 <= i < |dates| && !IsOffDay(dates[i], offA, offB) ==> dates[i] in r
    decreases |dates|
  {
    if dates == [] then []
    else
      var rest := FilterWorkingDates(dates[1..], offA, offB);
      if IsOffDay(dates[0], offA, offB) then rest else [dates[0]] + rest
  }

  /** The working dates keep the order of the window. */
  lemma {:induction false} FilterIsSubsequence(dates: seq<Date>, offA: int, offB: int)
    requires AllValid(dates)
    ensures IsSubsequence(FilterWorkingDates(dates, offA, offB), dates)
    decreases |dates|
  {
    if dates != [] {
      FilterIsSubsequence(dates[1..], offA, offB);
      assert dates == [dates[0]] + dates[1..];
      ConsSubsequence(dates[0], FilterWorkingDates(dates[1..], offA, offB), dates[1..],
                      !IsOffDay(dates[0], offA, offB));
    }
  }

  /** Filtering a window looks at its first date alone, then at the rest. */
  lemma FilterCons(x: Date, rest: seq<Date>, offA: int, offB: int)
    requires Valid(x) && AllValid(rest)
    ensures AllValid([x] + rest)
    ensures FilterWorkingDates([x] + rest, offA, offB)
         == (if IsOffDay(x, offA, offB) then [] else [x]) + FilterWorkingDates(rest, offA, offB)
  {
    hide DayNumber, Weekday, IsOffDay, Valid;
    assert ([x] + rest)[0] == x;
    assert ([x] + rest)[1..] == rest;
  }

  /** Filtering distributes over concatenation: each date is kept or dropped
      on its own weekday alone. */
  lemma {:induction false} FilterAppend(a: seq<Date>, b: seq<Date>, offA: int, offB: int)
    requires AllValid(a) && AllValid(b)
    ensures AllValid(a + b)
    ensures FilterWorkingDates(a + b, offA, offB)
         == FilterWorkingDates(a, offA, offB) + FilterWorkingDates(b, offA, offB)
    decreases |a|
  {
    hide DayNumber, Weekday, IsOffDay, Valid, FilterWorkingDates;
    if a == [] {
      assert a + b == b;
    } else {
      var x, rest := a[0], a[1..];
      assert a == [x] + rest;
      assert a + b == [x] + (rest + b);
      FilterAppend(rest, b, offA, offB);
      FilterCons(x, rest + b, offA, offB);
      FilterCons(x, rest, offA, offB);
    }
  }

  /** A window without off-days is its own working dates. */
  lemma {:induction false} FilterKeepsWorking(dates: seq<Date>, offA: int, offB: int)
    requires AllValid(dates)
    requires forall i :: 0 <= i < |dates| ==> !IsOffDay(dates[i], offA, offB)
    ensures FilterWorkingDates(dates, offA, offB) == dates
    decreases |dates|
  {
    if dates != [] {
      FilterKeepsWorking(dates[1..], offA, offB);
    }
  }

  /** A window of off-days has no working dates. */
  lemma {:induction false} FilterDropsOff(dates: seq<Date>, offA: int, offB: int)
    requires AllValid(dates)
    requires forall i :: 0 <= i < |dates| ==> IsOffDay(dates[i], offA, offB)
    ensures FilterWorkingDates(dates, offA, offB) == []
    decreases |dates|
  {
    if dates != [] {
      FilterDropsOff(dates[1..], offA, offB);
    }
  }

  /** Filtering the working dates again removes nothing. */
  lemma {:induction false} FilterIdempotent(dates: seq<Date>, offA: int, offB: int)
    requires AllValid(dates)
    ensures var w := FilterWorkingDates(dates, offA, offB);
      FilterWorkingDates(w, offA, offB) == w
    decreases |dates|
  {
    if dates != [] {
      FilterIdempotent(dates[1..], offA, offB);
      var rest := FilterWorkingDates(dates[1..], offA, offB);
      if !IsOffDay(dates[0], offA, offB) {
        assert ([dates[0]] + rest)[1..] == rest;
      }
    }
  }

  /** How many of the seven weekdays 0..6 the two off-day settings name. */
  function OffWeekdays(offA: int, offB: int): (n: nat)
    ensures n <= 2
  {
    (if 0 <= offA < 7 then 1 else 0) + (if 0 <= offB < 7 && offB != offA then 1 else 0)
  }

  function Working(d: Date, offA: int, offB: int): nat
    requires Valid(d)
  {
    WorkingWeight(Weekday(d), offA, offB)
  }

  /** Peeling the first day off a window: it adds one working day or none. */
  lemma FilterDaysFromStep(start: Date, count: nat, offA: int, offB: int)
    requires Valid(start) && count > 0
    ensures |FilterWorkingDates(DaysFrom(start, count), offA, offB)|
         == Working(start, offA, offB)
          + |FilterWorkingDates(DaysFrom(NextDay(start), count - 1), offA, offB)|
  {
    hide DayNumber;
    var r := DaysFrom(start, count);
    assert r[0] == start;
    assert r[1..] == DaysFrom(NextDay(start), count - 1);
  }

  /** The weekday after weekday `w`: Saturday is followed by Sunday. */
  function NextWeekday(w: int): int {
    if w == Saturday then Sunday else w + 1
  }

  lemma WeekdayOfNextDay(d: Date)
    requires Valid(d)
    ensures Weekday(NextDay(d)) == NextWeekday(Weekday(d))
  {
    WeekdayAfter(DayNumber(d), 1);
  }

  /** Working days among `n` successive weekdays starting at weekday `w`. */
  function CountWorking(w: int, n: nat, offA: int, offB: int): nat
    decreases n
  {
    if n == 0 then 0 else WorkingWeight(w, offA, offB) + CountWorking(NextWeekday(w), n - 1, offA, offB)
  }

  /** The number of working days in a window depends only on the weekday it
      starts on and its length. */
  lemma {:induction false} WorkingInWindow(start: Date, n: nat, offA: int, offB: int)
    requires Valid(start)
    ensures |FilterWorkingDates(DaysFrom(start, n), offA, offB)|
         == CountWorking(Weekday(start), n, offA, offB)
    decreases n
  {
    hide DayNumber;
    if n == 0 {
      assert DaysFrom(start, 0) == [];
    } else {
      FilterDaysFromStep(start, n, offA, offB);
      WeekdayOfNextDay(start);
      WorkingInWindow(NextDay(start), n - 1, offA, offB);
    }
  }

  /** Seven successive weekdays are all seven weekdays. */
  lemma SevenWeekdays(w: int, offA: int, offB: int)
    requires 0 <= w < 7
    ensures CountWorking(w, 7, offA, offB) == 7 - OffWeekdays(offA, offB)
  {
    var w1 := NextWeekday(w);
    var w2 := NextWeekday(w1);
    var w3 := NextWeekday(w2);
    var w4 := NextWeekday(w3);
    var w5 := NextWeekday(w4);
    var w6 := NextWeekday(w5);
    assert CountWorking(w, 7, offA, offB) == WorkingWeight(w, offA, offB) + CountWorking(w1, 6, offA, offB);
    assert CountWorking(w1, 6, offA, offB) == WorkingWeight(w1, offA, offB) + CountWorking(w2, 5, offA, offB);
    assert CountWorking(w2, 5, offA, offB) == WorkingWeight(w2, offA, offB) + CountWorking(w3, 4, offA, offB);
    assert CountWorking(w3, 4, offA, offB) == WorkingWeight(w3, offA, offB) + CountWorking(w4, 3, offA, offB);
    assert CountWorking(w4, 3, offA, offB) == WorkingWeight(w4, offA, offB) + CountWorking(w5, 2, offA, offB);
    assert CountWorking(w5, 2, offA, offB) == WorkingWeight(w5, offA, offB) + CountWorking(w6, 1, offA, offB);
    assert CountWorking(w6, 1, offA, offB) == WorkingWeight(w6, offA, offB);
    SevenWeights(w, offA, offB);
  }

  /** Any seven consecutive days hold each weekday once, so exactly
      7 - OffWeekdays(offA, offB) of them are working days. */
  lemma SevenDays(start: Date, offA: int, offB: int)
    requires Valid(start)
    ensures |FilterWorkingDates(DaysFrom(start, 7), offA, offB)| == 7 - OffWeekdays(offA, offB)
  {
    WorkingInWindow(start, 7, offA, offB);
    SevenWeekdays(Weekday(start), offA, offB);
  }

  /** A run of weekdays splits into two runs, the second starting where
      the first ends. */
  lemma {:induction false} CountWorkingSplit(w: int, a: nat, b: nat, offA: int, offB: int)
    requires 0 <= w < 7
    ensures CountWorking(w, a + b, offA, offB)
         == CountWorking(w, a, offA, offB) + CountWorking((w + a) % 7, b, offA, offB)
    decreases a
  {
    if a > 0 {
      hide WorkingWeight;
      var w' := NextWeekday(w);
      CountWorkingSplit(w', a - 1, b, offA, offB);
      NextWeekdayShift(w, a - 1);
      assert CountWorking(w, a + b, offA, offB)
          == WorkingWeight(w, offA, offB) + CountWorking(w', a - 1 + b, offA, offB);
    }
  }

  lemma NextWeekdayShift(w: int, i: nat)
    requires 0 <= w < 7
    ensures (NextWeekday(w) + i) % 7 == (w + i + 1) % 7
  {
    if w == 6 {
      assert (7 + i) % 7 == i % 7;
    }
  }

  /** A week more adds one week's working days. */
  lemma WeekLater(w: int, n: nat, offA: int, offB: int)
    requires 0 <= w < 7
    ensures CountWorking(w, 7 + n, offA, offB)
         == 7 - OffWeekdays(offA, offB) + CountWorking(w, n, offA, offB)
  {
    hide CountWorking, WorkingWeight, OffWeekdays;
    CountWorkingSplit(w, 7, n, offA, offB);
    SevenWeekdays(w, offA, offB);
    assert (w + 7) % 7 == w;
  }

  /** `k` whole weeks hold `k` times the working days of one week. */
  lemma {:induction false} WholeWeeks(w: int, k: nat, offA: int, offB: int)
    requires 0 <= w < 7
    ensures CountWorking(w, 7 * k, offA, offB) == k * (7 - OffWeekdays(offA, offB))
    decreases k
  {
    if k > 0 {
      hide CountWorking, WorkingWeight, OffWeekdays;
      var week := 7 - OffWeekdays(offA, offB);
      var n := 7 * (k - 1);
      assert 7 * k == 7 + n;
      WeekLater(w, n, offA, offB);
      WholeWeeks(w, k - 1, offA, offB);
      assert k * week == week + (k - 1) * week;
    }
  }

  /** 1 when weekday `w` is a working day, 0 when it is an off-day. */
  function WorkingWeight(w: int, offA: int, offB: int): nat {
    if w == offA || w == offB then 0 else 1
  }

  /** The weights of seven successive weekdays add up to the working days
      of a week. */
  lemma SevenWeights(w: int, offA: int, offB: int)
    requires 0 <= w < 7
    ensures var w1 := NextWeekday(w); var w2 := NextWeekday(w1); var w3 := NextWeekday(w2);
      var w4 := NextWeekday(w3); var w5 := NextWeekday(w4); var w6 := NextWeekday(w5);
      WorkingWeight(w, offA, offB) + WorkingWeight(w1, offA, offB) + WorkingWeight(w2, offA, offB)
      + WorkingWeight(w3, offA, offB) + WorkingWeight(w4, offA, offB) + WorkingWeight(w5, offA, offB)
      + WorkingWeight(w6, offA, offB) == 7 - OffWeekdays(offA, offB)
  {
    AllSevenWeekdays(offA, offB);
    hide WorkingWeight, OffWeekdays;
    var w1 := NextWeekday(w); var w2 := NextWeekday(w1); var w3 := NextWeekday(w2);
    var w4 := NextWeekday(w3); var w5 := NextWeekday(w4); var w6 := NextWeekday(w5);
    if w == 0 {
      assert w1 == 1 && w2 == 2 && w3 == 3 && w4 == 4 && w5 == 5 && w6 == 6;
    } else if w == 1 {
      assert w1 == 2 && w2 == 3 && w3 == 4 && w4 == 5 && w5 == 6 && w6 == 0;
    } else if w == 2 {
      assert w1 == 3 && w2 == 4 && w3 == 5 && w4 == 6 && w5 == 0 && w6 == 1;
    } else if w == 3 {
      assert w1 == 4 && w2 == 5 && w3 == 6 && w4 == 0 && w5 == 1 && w6 == 2;
    } else if w == 4 {
      assert w1 == 5 && w2 == 6 && w3 == 0 && w4 == 1 && w5 == 2 && w6 == 3;
    } else if w == 5 {
      assert w1 == 6 && w2 == 0 && w3 == 1 && w4 == 2 && w5 == 3 && w6 == 4;
    } else {
      assert w1 == 0 && w2 == 1 && w3 == 2 && w4 == 3 && w5 == 4 && w6 == 5;
    }
  }

  lemma AllSevenWeekdays(offA: int, offB: int)
    ensures WorkingWeight(0, offA, offB) + WorkingWeight(1, offA, offB) + WorkingWeight(2, offA, offB)
          + WorkingWeight(3, offA, offB) + WorkingWeight(4, offA, offB) + WorkingWeight(5, offA, offB)
          + WorkingWeight(6, offA, offB) == 7 - OffWeekdays(offA, offB)
  {
  }

  /** With two different off-days, e.g. Saturday and Sunday, every week
      view has five working days. */
  lemma WeekHasFiveWorkingDays(anchor: Date, offA: int, offB: int)
    requires Valid(anchor)
    requires 0 <= offA < 7 && 0 <= offB < 7 && offA != offB
    ensures |FilterWorkingDates(WeekDates(anchor), offA, offB)| == 5
  {
    SevenDays(WeekStart(anchor), offA, offB);
  }
}
